=== FILE: README.md ===
# kunai: a Dafny model of the per-keyboard layout switcher

kunai gives each physical keyboard its own keyboard layout in the niri
compositor. When a key is pressed on a keyboard, niri is switched to the
layout configured for that keyboard. This project models the decision logic
of the program and proves properties about it. The logic lives in three
source files:

- **Layout-service client** (`src/niri.rs`). It reads the layout names and
  the current index from niri's JSON reply. It switches to an absolute index
  by issuing `(target + total - current) % total` "switch-layout next"
  commands. The arithmetic is Rust `u32` with debug-build overflow checks.
  The compositor is an abstract `Service(names, current)`. The one
  assumption made about it is `Niri.Next`: a "next" command moves the index
  forward by one, wrapping around.
- **Keyboard discovery** (`src/input.rs`). It scans `/dev/input/by-id/` and
  keeps the `-event-kbd` entries whose device opens and whose name contains
  "Keyboard" but not "Receiver". The result is deduplicated by name, and
  the last entry seen wins. The directory, `Device::open` and
  `fs::canonicalize` are given as recorded outcomes.
- **Setup and daemon** (`src/main.rs`).
  - Setup validates each typed layout index and writes each keyboard's ids
    in `{:04x}` form.
  - The daemon builds its layout map from the configuration, keyed by
    `vendor_id:product_id`. It monitors every detected keyboard whose
    `{:04x}:{:04x}` key is in the map.
  - Each monitor sends one message per event whose value is 1, until its
    stream fails.
  - The receive loop debounces the messages. It switches only for a device
    other than the last one switched to, and only more than 100 ms after
    the last successful switch.

Modules, one per file:

- `Base`: integer widths, `Option`, `Result`, `str::contains`.
- `Arith`: modular facts.
- `Json`: the part of `serde_json::Value` that is read.
- `Niri`.
- `Input`.
- `DeviceKeys`: hex ids, device and config keys, the layout map.
- `Setup`.
- `Daemon`: start-up and monitor selection.
- `Monitor`: the per-device loops.
- `Debounce`: the receive loop.

Points where the behaviour is easy to misread:

- In dry-run mode the debounce state is never updated
  (`src/main.rs:187-191`). Every message is judged against the loop start.
- At daemon start, a configured keyboard whose device cannot be opened
  aborts start-up through `?` (`src/main.rs:155-156`). It is not skipped.
- Monitors are started once, at start-up (`src/main.rs:152-166`). There is
  no hotplug watcher, no reconciler and no cancellation.
- A monitor acts on any event with value 1, whatever its type
  (`src/main.rs:214`).
- A panic inside `switch_to_layout` (`src/niri.rs:47`) is not caught by the
  `if let Err` at `src/main.rs:193`. It ends the receive loop and the
  daemon.

## Model

| member | source | states |
|---|---|---|
| Base.AsU32 | src/niri.rs:33 | `as u32` keeps the value when it fits, never grows it, and differs from it by a multiple of 2^32 |
| Base.Contains | src/input.rs:49 | `str::contains` is true exactly when the substring occurs at some position |
| Json.StringsAreStringElementsInOrder | src/niri.rs:20-23 | `filter_map(as_str)` yields one string per string element, in order, and the k-th result is the payload of the k-th string element |
| Json.StringsOfStringArray | src/niri.rs:20-23 | an array made only of strings yields exactly those strings |
| Niri.GetLayouts | src/niri.rs:10-24 | a spawn failure and a non-JSON reply are errors; the result is "invalid response" exactly when `names` is missing or not an array; it succeeds exactly on a JSON reply whose `names` is an array, and then yields exactly the string elements of `names`, in order |
| Niri.GetCurrentIndex | src/niri.rs:27-34 | spawn and JSON errors propagate; an absent or non-u64 `current_idx` gives 0; a u64 value is truncated to u32 as `as u32` does (kept as is when it fits) |
| Niri.QueryRoundTrip | src/niri.rs:10-34 | against the modelled compositor, the two queries read back its layout names and its current index |
| Niri.Steps | src/niri.rs:43-47 | the step count panics on add overflow, exactly when `target + total` reaches 2^32; then on sub underflow, exactly when `current > target + total`; then on division by zero, exactly when `total == 0`. Otherwise it is below `total`, lands on `target` modulo `total`, and no smaller count does |
| Arith.ForwardDistance | src/niri.rs:47 | the forward distance lands on the target's residue and is the least count that does |
| Niri.StepsInRange | src/niri.rs:44-47 | with both indices below a non-zero total that fits, no panic occurs and the step count is below the total |
| Niri.AdvanceKeepsNames | src/niri.rs:49-53 | "next" commands never change the layout list |
| Niri.AdvanceCurrent | src/niri.rs:49-53 | under the `Next` assumption, k commands move the index k steps around the cycle |
| Niri.NoEarlierLanding | src/niri.rs:47-53 | counts that do not land on the target's residue leave the index away from the target |
| Niri.IssueNexts | src/niri.rs:49-53 | the loop runs to completion exactly when none of the `count` commands fails to spawn, and then issues all of them; otherwise it stops after the commands before the failing one |
| Niri.IssueNextsStopsAtFirstFailure | src/niri.rs:49-53 | the loop issues all commands, or stops at the first one that cannot be spawned; the commands before it stay in effect |
| Niri.SwitchToLayout | src/niri.rs:37-56 | the compositor ends up advanced by exactly the commands issued; at the target nothing is issued and the result is Ok; a failed index or layouts query is returned as that query's own `Err` and issues nothing; the result is an arithmetic panic exactly when both queries succeed away from the target and the step count panics, and then it is that panic; a command failure happens at the failing command |
| Niri.SwitchIssuesSteps | src/niri.rs:43-55 | away from the target, the switch issues exactly the computed step count, or stops at the first failing command and reports it |
| Niri.SwitchAwayIssuesDistance | src/niri.rs:43-53 | against a compositor whose replies are truthful, the switch issues the forward distance and succeeds |
| Niri.SwitchReachesTarget | src/niri.rs:37-56 | with in-range indices and truthful replies, the switch succeeds and the index ends exactly on the target; the names are unchanged, fewer than `total` commands are issued, and no earlier command reaches the target |
| Niri.SwitchAbortsWithoutRollback | src/niri.rs:49-53 | when command f fails, the switch reports the failure after exactly f commands, which stay in effect |
| Niri.SwitchWithoutLayoutsPanics | src/niri.rs:43-47 | with no layouts, a switch away from the current index panics (division by zero or underflow) and issues nothing |
| Niri.HugeTargetPanics | src/niri.rs:37-47 | a target so large that `target + total` leaves u32 makes a switch away from the current index panic on the addition before any command is issued |
| Input.KeyboardOf | src/input.rs:53-64 | a keyboard's name and its vendor and product ids come from the same entry's device |
| Input.Absorb | src/input.rs:31-65 | one loop iteration fails exactly when the item is unreadable or is an accepted entry whose path cannot be resolved |
| Input.Scan | src/input.rs:30-66 | the scan succeeds exactly when no item aborts it; every stored keyboard is keyed by its own name, which contains "Keyboard" and not "Receiver" |
| Input.ListKeyboards | src/input.rs:18-69 | a missing directory and an unlistable directory are errors; success means a listable directory with no aborting item; "Unknown" (the name of a device that reports none) never appears |
| Input.ScanLast | src/input.rs:56-65 | each accepted item overwrites its name's entry; other items leave the map as it was |
| Input.ScanFindsEveryName | src/input.rs:35-65 | the names found are exactly the names of the accepted entries |
| Input.ScanKeepsLastOfEachName | src/input.rs:56-65 | each name maps to the keyboard of the last accepted entry with that name |
| Input.SameNameCollapses | src/input.rs:56-65 | of two accepted entries with the same name, the one scanned later is kept |
| Input.ScanIgnoresSkipped | src/input.rs:35-44 | an entry that is not `-event-kbd`, or whose device does not open, is skipped and is not an error |
| DeviceKeys.HexWidthDigits | src/main.rs:110-111 | zero-padded hex formatting writes only lower-case hex digits |
| DeviceKeys.HexWidthRoundTrip | src/main.rs:110-111 | reading the digits back gives the value when it fits the width |
| DeviceKeys.Hex4 | src/main.rs:110-111 | `{:04x}` of a u16 is always four characters |
| DeviceKeys.Hex4Digits | src/main.rs:110-111 | every character of `{:04x}` is in 0-9a-f |
| DeviceKeys.Hex4RoundTrip | src/main.rs:110-111 | parsing `{:04x}` of x gives x |
| DeviceKeys.Hex4Injective | src/main.rs:110-111 | distinct u16 values have distinct `{:04x}` forms |
| DeviceKeys.DeviceKey | src/main.rs:153 | the daemon's key is nine characters with the colon at position 4 |
| DeviceKeys.DeviceKeyDigits | src/main.rs:153 | every character of the key but the colon is a hex digit |
| DeviceKeys.DeviceKeyInjective | src/main.rs:153 | two keyboards get the same key exactly when both ids agree |
| DeviceKeys.ConfigKeyParts | src/main.rs:138 | a configuration key is the raw vendor string, a colon, then the raw product string, with nothing normalised |
| DeviceKeys.ConfigKeyMatchesDevice | src/main.rs:135-156 | a configuration key equals a device key exactly when the raw id strings are that device's `{:04x}` forms |
| DeviceKeys.LayoutMap | src/main.rs:135-141 | every configuration key is in the map, and every key in the map comes from a configuration entry |
| DeviceKeys.LayoutMapLastWins | src/main.rs:136-141 | a key is bound to the name and layout of the last entry with that key |
| Setup.Prompt | src/main.rs:97-106 | an accepted answer is below the number of layouts, and the prompt never succeeds exactly when every answer is invalid |
| Setup.PromptTakesFirstValid | src/main.rs:97-106 | the accepted answer is the first valid one typed, every earlier one having been rejected |
| Setup.ConfigFor | src/main.rs:108-113 | the written entry carries the keyboard's name and its `{:04x}` ids, and the chosen index after `as u32`: unchanged when it fits, never larger |
| Setup.Configure | src/main.rs:95-114 | on success there is one entry per keyboard, in order, each naming its keyboard with the first valid answer typed at its prompt (as u32, below the layout count); it fails, with an aborted prompt, exactly when some keyboard's prompt gets no valid answer |
| Setup.RunSetup | src/main.rs:79-114 | listing and layout errors propagate in source order; no keyboards is an error exactly when both lists were read and the keyboard list is empty; setup succeeds exactly when there are keyboards and layouts and every keyboard's prompt gets a valid answer; no layouts is the `len() - 1` panic (debug build); the prompt aborts exactly when some keyboard gets no valid answer; each written entry records its keyboard and the first valid answer typed for it |
| Setup.DescribedKeys | src/main.rs:108-141 | each written entry's key is the daemon's key for its keyboard; the entry is kept when no later keyboard has the same ids |
| Setup.SetupKeysMatchDaemon | src/main.rs:108-153 | round trip: every keyboard that setup configures is found in the daemon's layout map under the key the daemon computes, with its name and the first valid index typed at its prompt when no later keyboard shares its ids |
| Daemon.InLayoutMapIffConfigured | src/main.rs:135-154 | a detected keyboard's key is in the layout map exactly when some entry names its ids in `{:04x}` form |
| Daemon.Selected | src/main.rs:152-154 | a detected keyboard is selected exactly when its key is in the layout map, tagged with that key, requesting that key's layout and reading its own device |
| Daemon.SelectedIffConfigured | src/main.rs:152-166 | the keyboards selected for monitoring are exactly the configured ones; none are selected exactly when no detected keyboard is configured |
| Daemon.StartDaemon | src/main.rs:127-172 | an empty configuration is an error; listing errors propagate; on success the monitors are exactly the detected configured keyboards (at least one), each tagged with its own key and its mapped layout; "no configured keyboard found" exactly when none is detected; start-up aborts on a device exactly when some configured detected keyboard's device does not open; it succeeds exactly when some configured keyboard is detected and every configured detected keyboard's device opens |
| Daemon.Launch | src/main.rs:152-172 | after listing: abort exactly when a configured keyboard's device does not open, refuse exactly when none is configured, otherwise serve exactly the configured keyboards |
| Daemon.SelectedUnopenableIffConfigured | src/main.rs:152-156 | a selected device fails to open exactly when a configured detected keyboard's device is not openable |
| Daemon.UnopenableSelectedAborts | src/main.rs:154-156 | a configured keyboard whose device does not open aborts start-up |
| Monitor.LiveLength | src/main.rs:212-224 | the loop reads the stream up to, and not past, the first error |
| Monitor.Activations | src/main.rs:212-224 | every message carries the monitor's tag, and there are no more messages than events read |
| Monitor.ActivationsStopAtError | src/main.rs:219-222 | nothing after the first stream error produces a message |
| Monitor.ActivationsAppend | src/main.rs:212-224 | messages are sent in stream order: an error-free prefix's messages come first |
| Monitor.ActivationsCountPresses | src/main.rs:213-218 | on an error-free stream, exactly one message is sent per event with value 1 |
| Monitor.ActivationsOfLivePrefix | src/main.rs:212-224 | the number of messages is the number of value-1 events before the first error |
| Monitor.AnyValueOneEventActivates | src/main.rs:214 | an event of any type with value 1 sends a message |
| Monitor.MonitorKeyboard | src/main.rs:206-225 | the loop sends exactly the tagged activations of the stream, one per value-1 event before the first error |
| Monitor.TestKeyboard | src/main.rs:261-275 | the same loop, sending the keyboard's name |
| Debounce.Elapsed | src/main.rs:186 | `Instant::elapsed` is the time since the last switch, saturating at zero |
| Debounce.Admits | src/main.rs:186 | a message is admitted exactly when it comes from a device other than the last one switched to and arrives more than 100 ms after the last switch's clock reading |
| Debounce.OutcomeOf | src/niri.rs:43-53 | a switch result is `Ok`, an `Err` the loop survives, or, for the arithmetic panics of the step count, a panic |
| Debounce.HugeTargetIsAPanic | src/main.rs:193 | a layout index with `target + total` beyond u32 makes the switch panic, which `if let Err` does not catch |
| Debounce.Step | src/main.rs:184-200 | a message is acted on exactly when it is from another device and more than 100 ms have passed; only a successful live switch changes the state, setting it to that device and the time the switch returned; an error is reported and a panic crashes the loop |
| Debounce.Run | src/main.rs:180-201 | the loop starts from the initial state and takes one step per message, in order, handling every message unless a switch panics, and nothing after a panic |
| Debounce.CrashEndsTheLoop | src/main.rs:184-201 | a crash is the last action and comes only from a panicking live switch; without one every message is handled |
| Debounce.DryRunKeepsInitialState | src/main.rs:187-191 | in dry-run the state never leaves its initial value, no switch is executed, and each message is exactly either suppressed or reported as a would-be switch by the debounce condition against the loop start |
| Debounce.QuietKeepsState | src/main.rs:186-198 | between successful switches the debounce state does not change |
| Debounce.SwitchesAreSpaced | src/main.rs:186-197 | consecutive successful switches come from different devices, and the later message arrives more than 100 ms after the earlier switch returned |
| Debounce.BeforeFirstSwitch | src/main.rs:180-186 | before any successful switch, a message is acted on exactly when it arrives more than 100 ms after the loop started |
| Debounce.FailedSwitchChangesNothing | src/main.rs:193-198 | a switch that returns `Err` leaves the debounce state unchanged and the loop goes on, so the next message can retry |
| Debounce.PanicEndsDaemon | src/main.rs:193 | an admitted live message whose switch panics is the last message handled, whatever is queued behind it |

## Left out

- Configuration loading and saving (`src/config.rs`) is file I/O and serde. The configuration is a parameter: `DeviceKeys.KeyboardConfig` mirrors `src/config.rs:17-23`.
- Command-line parsing, printing, `cmd_list` and the timestamps of `cmd_test` are user interface with no decision logic. `cmd_test`'s per-keyboard loop is modelled as `Monitor.TestKeyboard`.
- `cmd_test`'s start-up (refusing an empty keyboard list and opening every keyboard with `?`) follows the daemon's start-up pattern without a selection step and is not modelled separately.
- The tokio runtime, task spawning and the mpsc channel are concurrency plumbing. The messages the receive loop sees are an in-order sequence of deliveries. A send to a closed channel is ignored by the source and is not modelled.
- evdev, `fs::read_dir`, `fs::canonicalize` and `Device::open` are foreign I/O. Each is given as a recorded outcome:
  - a directory entry with optional name, device and resolved path;
  - a set of openable device paths;
  - a finite stream of events and errors.
- Spawning `niri` and parsing its JSON are foreign calls. A reply is "not spawned", "not JSON" or a JSON value. The compositor is an abstract state under the `Niri.Next` assumption.
- Release builds wrap integer arithmetic instead of panicking; only the debug-build checked semantics are modelled. The `u32` addition and subtraction in `src/niri.rs:47` wrap (the `% 0` panics in both builds). The `usize` subtraction `layouts.len() - 1` in `src/main.rs:98` wraps to `usize::MAX` when there are no layouts: the validator at `src/main.rs:100` then rejects every answer, so the prompt re-asks until `interact()` fails (an aborted prompt) or forever, where the model reports `PromptPanic`.
- The first-switch precondition that device ids are non-empty holds because every id the daemon tags messages with is a nine-character `DeviceKeys.DeviceKey`.
- Clock readings are natural numbers of nanoseconds. Each delivery gives its receive time and the time its switch returned.
- The switch outcome in each `Debounce.Delivery` is given as `Ok`, `Err` or panic, not computed by a call into `Niri.SwitchToLayout`; `Debounce.OutcomeOf` is the map from a modelled switch result. The loop distinguishes only these three.
- Hotplug watching, a monitor registry or reconciler, and monitor cancellation do not exist in this code, so they are not modelled.

=== FILE: arith.dfy ===
/** Facts about Euclidean division used by the cyclic step arithmetic. */
module Arith {

  lemma MulAtLeast(a: int, m: int)
    requires a >= 1 && m > 0
    ensures a * m >= m
  {
    assert a * m == (a - 1) * m + m;
  }

  /** A quotient/remainder decomposition of `x` is THE one `/` and `%` give. */
  lemma ModUnique(x: int, m: int, q: int, r: int)
    requires m > 0 && 0 <= r < m && x == q * m + r
    ensures x % m == r && x / m == q
  {
    var q0, r0 := x / m, x % m;
    assert x == q0 * m + r0;
    assert (q - q0) * m == r0 - r;
    if q > q0 {
      MulAtLeast(q - q0, m);
    } else if q < q0 {
      MulAtLeast(q0 - q, m);
    }
  }

  /** A number below the modulus is its own residue. */
  lemma ModSmall(x: int, m: int)
    requires 0 <= x < m
    ensures x % m == x
  {
    ModUnique(x, m, 0, x);
  }

  /** Adding a multiple of `m` does not change the residue. */
  lemma ModAddMultiple(a: int, n: int, m: int)
    requires m > 0
    ensures (a + n * m) % m == a % m
  {
    var q := a / m;
    assert a == q * m + a % m;
    assert a + n * m == (q + n) * m + a % m;
    ModUnique(a + n * m, m, q + n, a % m);
  }

  /** Reducing a summand first does not change the residue of a sum. */
  lemma ModOfReducedSum(a: int, b: int, m: int)
    requires m > 0
    ensures (a % m + b) % m == (a + b) % m
  {
    var q := a / m;
    assert a == q * m + a % m;
    assert a % m + b == (a + b) + (-q) * m;
    ModAddMultiple(a + b, -q, m);
  }

  /** Two numbers less than `m` apart with the same residue are equal. */
  lemma ModEqualClose(a: int, b: int, m: int)
    requires m > 0 && a <= b < a + m
    requires a % m == b % m
    ensures a == b
  {
    var qa, qb := a / m, b / m;
    assert a == qa * m + a % m;
    assert b == qb * m + b % m;
    assert b - a == (qb - qa) * m;
    if qb > qa {
      MulAtLeast(qb - qa, m);
    } else if qb < qa {
      MulAtLeast(qa - qb, m);
    }
  }

  /** `k` forward steps around a cycle of `total` positions lead from
      `current` to `target`'s position. */
  predicate Lands(current: nat, k: nat, total: nat, target: nat)
    requires total > 0
  {
    (current + k) % total == target % total
  }

  /** The forward distance `(target + total - current) % total` lands on
      `target` and no smaller count does. */
  lemma ForwardDistance(current: nat, target: nat, total: nat)
    requires 0 < total && current <= target + total
    ensures Lands(current, (target + total - current) % total, total, target)
    ensures forall k :: 0 <= k < (target + total - current) % total ==> !Lands(current, k, total, target)
  {
    var d := target + total - current;
    var steps := d % total;
    var q := d / total;
    assert d == q * total + steps;
    assert (1 - q) * total == total - q * total;
    assert current + steps == target + (1 - q) * total;
    ModAddMultiple(target, 1 - q, total);
    assert Lands(current, steps, total, target);
    forall k | 0 <= k < steps
      ensures !Lands(current, k, total, target)
    {
      if Lands(current, k, total, target) {
        ModEqualClose(current + k, current + steps, total);
      }
    }
  }
}

=== FILE: base.dfy ===
/** Shared vocabulary: fixed-width integers, Option/Result and the string
    predicates the source uses (`str::contains`, `str::ends_with`). */
module Base {

  const U16_LIMIT: int := 0x1_0000
  const U32_LIMIT: int := 0x1_0000_0000
  const U64_LIMIT: int := 0x1_0000_0000_0000_0000

  type u16 = x: int | 0 <= x < U16_LIMIT
  type u32 = x: int | 0 <= x < U32_LIMIT

  /** Rust's `as u32` on an unsigned value: keep the low 32 bits. */
  function AsU32(x: nat): (r: u32)
    ensures x < U32_LIMIT ==> r == x
    ensures r <= x
    ensures (x - r) % U32_LIMIT == 0
  {
    x % U32_LIMIT
  }

  /** Rust's `Option`, with the one combinator the source uses. */
  datatype Option<T> = None | Some(value: T) {
    /** `Option::unwrap_or`. */
    function UnwrapOr(fallback: T): T {
      if Some? then value else fallback
    }
  }

  /** Rust's `Result`. */
  datatype Result<T, E> = Success(value: T) | Failure(error: E)

  /** `sub` occurs in `s` starting at position `i`. */
  predicate OccursAt(s: string, sub: string, i: nat) {
    i + |sub| <= |s| && s[i..i + |sub|] == sub
  }

  /** `str::contains`: a left-to-right search for `sub`, characterised by
      the existence of a position where it occurs. */
  function Contains(s: string, sub: string): (b: bool)
    ensures b <==> exists i: nat :: OccursAt(s, sub, i)
    decreases |s|
  {
    if |sub| <= |s| && s[..|sub|] == sub then
      assert OccursAt(s, sub, 0);
      true
    else if |s| == 0 then
      false
    else
      var rest := Contains(s[1..], sub);
      ContainsShift(s, sub);
      rest
  }

  /** An occurrence in `s` is either at the front or one in the tail. */
  lemma ContainsShift(s: string, sub: string)
    requires |s| > 0
    requires !(|sub| <= |s| && s[..|sub|] == sub)
    ensures (exists i: nat :: OccursAt(s, sub, i)) <==> (exists i: nat :: OccursAt(s[1..], sub, i))
  {
    if i: nat :| OccursAt(s, sub, i) {
      assert i != 0;
      assert s[1..][i - 1..i - 1 + |sub|] == s[i..i + |sub|];
      assert OccursAt(s[1..], sub, i - 1);
    }
    if i: nat :| OccursAt(s[1..], sub, i) {
      assert s[1..][i..i + |sub|] == s[i + 1..i + 1 + |sub|];
      assert OccursAt(s, sub, i + 1);
    }
  }

  /** `str::ends_with`. */
  predicate EndsWith(s: string, suffix: string) {
    |suffix| <= |s| && s[|s| - |suffix|..] == suffix
  }
}

=== FILE: daemon.dfy ===
/** Daemon start-up (`cmd_daemon` in src/main.rs, up to the event loop):
    build the layout map from the configuration, list the keyboards, and
    start one monitor for every detected keyboard whose key is in the map.
    Monitors are started once; nothing re-lists the keyboards later.

    Opening a device and turning it into an event stream are I/O; the set
    of device paths for which both succeed is a parameter. */
module Daemon {
  import opened Base
  import Input
  import opened DeviceKeys

  /** A started monitor: the key it tags its messages with, the layout it
      requests, and the device it reads. */
  datatype Monitor = Monitor(deviceId: string, layout: u32, devicePath: string)

  datatype StartError =
    | NothingConfigured            // the configuration has no keyboards
    | ListFailed(listError: Input.ListError)
    | OpenFailed                   // a selected device did not open (`?` in the loop)
    | NoConfiguredKeyboard         // no detected keyboard is in the layout map

  /** The key of a detected keyboard. */
  function KeyOf(kb: Input.Keyboard): string {
    DeviceKey(kb.vendorId, kb.productId)
  }

  /** Some configuration entry names exactly this keyboard's ids, written
      as four lower-case hex digits each. */
  predicate Configured(configs: seq<KeyboardConfig>, kb: Input.Keyboard) {
    exists i :: 0 <= i < |configs| && configs[i].vendorId == Hex4(kb.vendorId)
                                   && configs[i].productId == Hex4(kb.productId)
  }

  /** A keyboard's key is in the layout map exactly when it is configured. */
  lemma InLayoutMapIffConfigured(configs: seq<KeyboardConfig>, kb: Input.Keyboard)
    ensures KeyOf(kb) in LayoutMap(configs) <==> Configured(configs, kb)
  {
    if KeyOf(kb) in LayoutMap(configs) {
      var i :| 0 <= i < |configs| && ConfigKey(configs[i]) == KeyOf(kb);
      ConfigKeyMatchesDevice(configs[i], kb.vendorId, kb.productId);
    }
    if Configured(configs, kb) {
      var i :| 0 <= i < |configs| && configs[i].vendorId == Hex4(kb.vendorId)
                                  && configs[i].productId == Hex4(kb.productId);
      ConfigKeyMatchesDevice(configs[i], kb.vendorId, kb.productId);
    }
  }

  /** The keyboards to monitor, by name, each with its map entry's layout. */
  function Selected(kbs: map<string, Input.Keyboard>, layouts: map<string, Binding>): (r: map<string, Monitor>)
    ensures forall n :: n in r <==> n in kbs && KeyOf(kbs[n]) in layouts
    ensures forall n :: n in r ==>
      && r[n].deviceId == KeyOf(kbs[n]) && r[n].deviceId in layouts
      && r[n].layout == layouts[r[n].deviceId].layout
      && r[n].devicePath == kbs[n].devicePath
  {
    map n | n in kbs && KeyOf(kbs[n]) in layouts ::
      Monitor(KeyOf(kbs[n]), layouts[KeyOf(kbs[n])].layout, kbs[n].devicePath)
  }

  /** The selection is exactly the configured keyboards; none are selected
      when no detected keyboard is configured. */
  lemma SelectedIffConfigured(configs: seq<KeyboardConfig>, kbs: map<string, Input.Keyboard>)
    ensures forall n :: n in Selected(kbs, LayoutMap(configs)) <==> n in kbs && Configured(configs, kbs[n])
    ensures |Selected(kbs, LayoutMap(configs))| == 0 <==> forall n :: n in kbs ==> !Configured(configs, kbs[n])
  {
    var m := Selected(kbs, LayoutMap(configs));
    forall n | n in kbs
      ensures n in m <==> Configured(configs, kbs[n])
    {
      InLayoutMapIffConfigured(configs, kbs[n]);
    }
    if |m| != 0 {
      var n :| n in m;
    }
  }

  /** A selected keyboard fails to open exactly when some configured
      detected keyboard's device is not openable. */
  lemma SelectedUnopenableIffConfigured(configs: seq<KeyboardConfig>, kbs: map<string, Input.Keyboard>,
                                        openable: set<string>)
    ensures (exists n :: n in Selected(kbs, LayoutMap(configs)) && Selected(kbs, LayoutMap(configs))[n].devicePath !in openable)
      <==> (exists n :: n in kbs && Configured(configs, kbs[n]) && kbs[n].devicePath !in openable)
  {
    var m := Selected(kbs, LayoutMap(configs));
    SelectedIffConfigured(configs, kbs);
    if n :| n in m && m[n].devicePath !in openable {
      assert n in kbs && Configured(configs, kbs[n]) && kbs[n].devicePath !in openable;
    }
    if n :| n in kbs && Configured(configs, kbs[n]) && kbs[n].devicePath !in openable {
      assert n in m && m[n].devicePath !in openable;
    }
  }

  /** Start-up of the daemon. On success, the monitors are exactly the
      detected keyboards that some configuration entry names, each tagged
      with its own key and the layout the map holds for it, and there is at
      least one. */
  function StartDaemon(configs: seq<KeyboardConfig>,
                       listing: Result<map<string, Input.Keyboard>, Input.ListError>,
                       openable: set<string>): (r: Result<map<string, Monitor>, StartError>)
    ensures r == Failure(NothingConfigured) <==> |configs| == 0
    ensures listing.Failure? && |configs| > 0 ==> r == Failure(ListFailed(listing.error))
    ensures r.Success? ==> listing.Success? && |r.value| > 0
    ensures r.Success? ==> Serves(r.value, configs, listing.value, openable)
    ensures r == Failure(NoConfiguredKeyboard) <==>
      |configs| > 0 && listing.Success? && forall n :: n in listing.value ==> !Configured(configs, listing.value[n])
    ensures r == Failure(OpenFailed) <==>
      && |configs| > 0 && listing.Success?
      && exists n :: n in listing.value && Configured(configs, listing.value[n]) && listing.value[n].devicePath !in openable
    ensures r.Success? <==>
      && |configs| > 0 && listing.Success?
      && (exists n :: n in listing.value && Configured(configs, listing.value[n]))
      && forall n :: n in listing.value && Configured(configs, listing.value[n]) ==> listing.value[n].devicePath in openable
  {
    if |configs| == 0 then Failure(NothingConfigured)
    else
      match listing
      case Failure(e) => Failure(ListFailed(e))
      case Success(kbs) =>
        Launch(configs, kbs, openable)
  }

  /** Start-up once the keyboards are listed: select the configured ones,
      open each selected device (the first failure aborts), and refuse to
      run with nothing selected. */
  function Launch(configs: seq<KeyboardConfig>, kbs: map<string, Input.Keyboard>, openable: set<string>)
    : (r: Result<map<string, Monitor>, StartError>)
    ensures r.Success? || r == Failure(OpenFailed) || r == Failure(NoConfiguredKeyboard)
    ensures r == Failure(OpenFailed) <==>
      exists n :: n in kbs && Configured(configs, kbs[n]) && kbs[n].devicePath !in openable
    ensures r == Failure(NoConfiguredKeyboard) <==> forall n :: n in kbs ==> !Configured(configs, kbs[n])
    ensures r.Success? ==> |r.value| > 0
    ensures r.Success? ==> Serves(r.value, configs, kbs, openable)
  {
    var monitors := Selected(kbs, LayoutMap(configs));
    SelectedIffConfigured(configs, kbs);
    SelectedUnopenableIffConfigured(configs, kbs, openable);
    if exists n :: n in monitors && monitors[n].devicePath !in openable then Failure(OpenFailed)
    else if |monitors| == 0 then Failure(NoConfiguredKeyboard)
    else
      SelectedServes(configs, kbs, openable);
      Success(monitors)
  }

  /** The monitors serve exactly the configured detected keyboards, each
      tagged with its own key, requesting the layout the map holds for that
      key, and reading that keyboard's device, which opened. */
  predicate Serves(monitors: map<string, Monitor>, configs: seq<KeyboardConfig>,
                   kbs: map<string, Input.Keyboard>, openable: set<string>) {
    && (forall n :: n in kbs && Configured(configs, kbs[n]) ==> n in monitors)
    && forall n :: n in monitors ==>
      && n in kbs && Configured(configs, kbs[n])
      && monitors[n].deviceId == KeyOf(kbs[n])
      && monitors[n].deviceId in LayoutMap(configs)
      && monitors[n].layout == LayoutMap(configs)[monitors[n].deviceId].layout
      && monitors[n].devicePath == kbs[n].devicePath
      && monitors[n].devicePath in openable
  }

  /** When every configured keyboard's device opens, the selection serves
      them. */
  lemma SelectedServes(configs: seq<KeyboardConfig>, kbs: map<string, Input.Keyboard>, openable: set<string>)
    requires forall n :: n in kbs && Configured(configs, kbs[n]) ==> kbs[n].devicePath in openable
    ensures Serves(Selected(kbs, LayoutMap(configs)), configs, kbs, openable)
  {
    SelectedIffConfigured(configs, kbs);
  }

  /** A failing device aborts start-up: when a selected keyboard's device
      does not open, the daemon does not start at all. */
  lemma UnopenableSelectedAborts(configs: seq<KeyboardConfig>, kbs: map<string, Input.Keyboard>,
                                 openable: set<string>, n: string)
    requires |configs| > 0
    requires n in kbs && Configured(configs, kbs[n]) && kbs[n].devicePath !in openable
    ensures StartDaemon(configs, Success(kbs), openable) == Failure(OpenFailed)
  {
    InLayoutMapIffConfigured(configs, kbs[n]);
    assert n in Selected(kbs, LayoutMap(configs));
  }
}

=== FILE: debounce.dfy ===
/** The daemon's receive loop (`cmd_daemon` in src/main.rs, after start-up):
    messages from all monitors arrive on one channel; a message switches
    the layout only when it comes from a different device than the last
    switch AND more than 100 ms have passed since that switch.

    Time is a natural number of nanoseconds on a monotonic clock. Each
    delivery records when it was received, whether the compositor switch
    succeeded, and when that switch returned (the moment `Instant::now()`
    is read for the new state). The interleaving of the monitor tasks is
    the order of the deliveries. */
module Debounce {
  import opened Base
  import Niri

  /** `Duration::from_millis(100)`, in nanoseconds. */
  const Window: nat := 100_000_000

  /** `last_device` and `last_switch`. */
  datatype State = State(lastDevice: string, lastSwitch: nat)

  /** How a call to `switch_to_layout` ends: `Ok`, an `Err` the loop
      reports and survives, or a panic that unwinds out of the loop and
      ends the daemon. */
  datatype Outcome = SwitchOk | SwitchErr | SwitchPanic

  /** The outcome of a modelled switch: the arithmetic errors of
      `Niri.Steps` are panics, every other error is an `Err`. */
  function OutcomeOf(r: Result<(), Niri.NiriError>): (o: Outcome)
    ensures o == SwitchOk <==> r.Success?
    ensures o == SwitchPanic <==> r.Failure? && Niri.Panics(r.error)
    ensures o == SwitchErr <==> r.Failure? && !Niri.Panics(r.error)
  {
    match r
    case Success(_) => SwitchOk
    case Failure(e) => if Niri.Panics(e) then SwitchPanic else SwitchErr
  }

  /** A configured layout index so large that `target + total` leaves u32
      is not an `Err`: the switch for it panics. */
  lemma HugeTargetIsAPanic(target: u32, svc: Niri.Service)
    requires svc.current < U32_LIMIT && svc.current != target
    requires |svc.names| < U32_LIMIT && target + |svc.names| >= U32_LIMIT
    ensures OutcomeOf(Niri.SwitchToLayout(target, Niri.Query(svc), Niri.Query(svc), svc, None).result) == SwitchPanic
  {
    Niri.HugeTargetPanics(target, svc);
  }

  /** One message received from the channel, with the outcome the switch
      would have and the time it would return. */
  datatype Delivery = Delivery(deviceId: string, layout: u32, at: nat, outcome: Outcome, doneAt: nat)

  /** What the loop does with one message. */
  datatype Action =
    | Suppressed                    // same device, or too soon
    | WouldSwitch(layout: u32)      // dry run: printed, not executed
    | SwitchFailed(layout: u32)     // `switch_to_layout` returned an error
    | Switched(layout: u32)         // switched, state updated
    | Crashed(layout: u32)          // `switch_to_layout` panicked: the loop ends

  /** The state at loop start: no device yet, and the clock read then. */
  function Initial(start: nat): State {
    State("", start)
  }

  /** `Instant::elapsed` at time `now`: saturates at zero. */
  function Elapsed(now: nat, since: nat): (d: nat)
    ensures now >= since ==> d + since == now
    ensures now < since ==> d == 0
  {
    if now >= since then now - since else 0
  }

  /** The debounce condition, evaluated when the message is received. */
  predicate Admits(s: State, d: Delivery): (b: bool)
    ensures b <==> d.deviceId != s.lastDevice && d.at > s.lastSwitch + Window
  {
    d.deviceId != s.lastDevice && Elapsed(d.at, s.lastSwitch) > Window
  }

  /** One iteration of the loop. Only a successful, real switch updates the
      state: a dry run, a failed switch or a panic leaves it as it was. */
  function Step(s: State, d: Delivery, dryRun: bool): (r: (State, Action))
    ensures r.1.Suppressed? <==> !Admits(s, d)
    ensures r.0 != s ==> r.1.Switched?
    ensures r.1.Switched? <==> Admits(s, d) && !dryRun && d.outcome == SwitchOk
    ensures r.1.Switched? ==> r.0 == State(d.deviceId, d.doneAt) && r.1.layout == d.layout
    ensures r.1.WouldSwitch? <==> Admits(s, d) && dryRun
    ensures r.1.SwitchFailed? <==> Admits(s, d) && !dryRun && d.outcome == SwitchErr
    ensures r.1.Crashed? <==> Admits(s, d) && !dryRun && d.outcome == SwitchPanic
  {
    if !Admits(s, d) then (s, Suppressed)
    else if dryRun then (s, WouldSwitch(d.layout))
    else match d.outcome
      case SwitchErr => (s, SwitchFailed(d.layout))
      case SwitchPanic => (s, Crashed(d.layout))
      case SwitchOk => (State(d.deviceId, d.doneAt), Switched(d.layout))
  }

  /** The states the loop passes through (`states[i]` is the state before
      message `i`, the last one the state at the end) and its actions, one
      per message handled. */
  datatype Trace = Trace(states: seq<State>, actions: seq<Action>)

  /** The loop ended on a panic. */
  predicate Halted(t: Trace) {
    |t.actions| > 0 && t.actions[|t.actions| - 1].Crashed?
  }

  /** The loop over the deliveries: one Step per message, in order, until
      the deliveries run out or a switch panics; nothing after a panic is
      handled. */
  function Run(init: State, ds: seq<Delivery>, dryRun: bool): (t: Trace)
    ensures |t.states| == |t.actions| + 1 && |t.actions| <= |ds|
    ensures t.states[0] == init
    ensures forall i :: 0 <= i < |t.actions| ==> Step(t.states[i], ds[i], dryRun) == (t.states[i + 1], t.actions[i])
    ensures forall i :: 0 <= i < |t.actions| - 1 ==> !t.actions[i].Crashed?
    ensures |t.actions| < |ds| ==> Halted(t)
    decreases |ds|
  {
    if |ds| == 0 then Trace([init], [])
    else
      var t := Run(init, ds[..|ds| - 1], dryRun);
      assert forall i :: 0 <= i < |ds| - 1 ==> ds[i] == ds[..|ds| - 1][i];
      if Halted(t) then t
      else
        var last := Step(t.states[|ds| - 1], ds[|ds| - 1], dryRun);
        Trace(t.states + [last.0], t.actions + [last.1])
  }

  /** A panic is the last thing the loop does, and only a panicking switch
      produces one; without a panic every message is handled. */
  lemma CrashEndsTheLoop(init: State, ds: seq<Delivery>, dryRun: bool)
    ensures forall i :: 0 <= i < |Run(init, ds, dryRun).actions| && Run(init, ds, dryRun).actions[i].Crashed? ==>
      i == |Run(init, ds, dryRun).actions| - 1 && !dryRun && ds[i].outcome == SwitchPanic
    ensures (forall i :: 0 <= i < |Run(init, ds, dryRun).actions| ==> !Run(init, ds, dryRun).actions[i].Crashed?) ==>
      |Run(init, ds, dryRun).actions| == |ds|
  {
    var t := Run(init, ds, dryRun);
    forall i | 0 <= i < |t.actions| && t.actions[i].Crashed?
      ensures i == |t.actions| - 1 && !dryRun && ds[i].outcome == SwitchPanic
    {
      assert Step(t.states[i], ds[i], dryRun) == (t.states[i + 1], t.actions[i]);
    }
  }

  /** In a dry run the state never leaves its initial value, so each message
      is judged against the loop start, no switch is ever executed, and so
      every message is handled. */
  lemma {:induction false} DryRunKeepsInitialState(init: State, ds: seq<Delivery>)
    ensures |Run(init, ds, true).actions| == |ds|
    ensures forall i :: 0 <= i <= |ds| ==> Run(init, ds, true).states[i] == init
    ensures forall i :: 0 <= i < |ds| ==> !Run(init, ds, true).actions[i].Switched?
    ensures forall i :: 0 <= i < |ds| ==>
      Run(init, ds, true).actions[i] == if Admits(init, ds[i]) then WouldSwitch(ds[i].layout) else Suppressed
  {
    var t := Run(init, ds, true);
    forall l | 0 <= l < |t.actions|
      ensures !t.actions[l].Switched? && !t.actions[l].Crashed?
    {
      assert Step(t.states[l], ds[l], true) == (t.states[l + 1], t.actions[l]);
    }
    CrashEndsTheLoop(init, ds, true);
    forall i | 0 <= i <= |ds|
      ensures t.states[i] == init
    {
      QuietKeepsState(init, ds, true, 0, i);
    }
    forall i | 0 <= i < |ds|
      ensures t.actions[i] == if Admits(init, ds[i]) then WouldSwitch(ds[i].layout) else Suppressed
    {
      assert Step(t.states[i], ds[i], true) == (t.states[i + 1], t.actions[i]);
    }
  }

  /** Between two switches nothing changes the state. */
  lemma {:induction false} QuietKeepsState(init: State, ds: seq<Delivery>, dryRun: bool, i: nat, j: nat)
    requires i <= j <= |Run(init, ds, dryRun).actions|
    requires forall l :: i <= l < j ==> !Run(init, ds, dryRun).actions[l].Switched?
    ensures Run(init, ds, dryRun).states[j] == Run(init, ds, dryRun).states[i]
    decreases j - i
  {
    if i < j {
      var t := Run(init, ds, dryRun);
      assert Step(t.states[j - 1], ds[j - 1], dryRun) == (t.states[j], t.actions[j - 1]);
      QuietKeepsState(init, ds, dryRun, i, j - 1);
    }
  }

  /** Two consecutive switches come from different devices, and the later
      message was received more than 100 ms after the earlier switch
      returned. */
  lemma SwitchesAreSpaced(init: State, ds: seq<Delivery>, dryRun: bool, i: nat, j: nat)
    requires i < j < |Run(init, ds, dryRun).actions|
    requires Run(init, ds, dryRun).actions[i].Switched? && Run(init, ds, dryRun).actions[j].Switched?
    requires forall l :: i < l < j ==> !Run(init, ds, dryRun).actions[l].Switched?
    ensures ds[j].deviceId != ds[i].deviceId
    ensures ds[j].at > ds[i].doneAt + Window
  {
    var t := Run(init, ds, dryRun);
    assert Step(t.states[i], ds[i], dryRun) == (t.states[i + 1], t.actions[i]);
    assert t.states[i + 1] == State(ds[i].deviceId, ds[i].doneAt);
    QuietKeepsState(init, ds, dryRun, i + 1, j);
    assert Step(t.states[j], ds[j], dryRun) == (t.states[j + 1], t.actions[j]);
  }

  /** Before the first successful switch, every message is judged against
      the loop start: with the device ids the monitors use (never empty), a
      message is acted on exactly when it arrives more than 100 ms after
      the loop started. */
  lemma BeforeFirstSwitch(start: nat, ds: seq<Delivery>, dryRun: bool, j: nat)
    requires j < |Run(Initial(start), ds, dryRun).actions| && ds[j].deviceId != ""
    requires forall l :: 0 <= l < j ==> !Run(Initial(start), ds, dryRun).actions[l].Switched?
    ensures Run(Initial(start), ds, dryRun).actions[j].Suppressed? <==> ds[j].at <= start + Window
  {
    var t := Run(Initial(start), ds, dryRun);
    QuietKeepsState(Initial(start), ds, dryRun, 0, j);
    assert Step(t.states[j], ds[j], dryRun) == (t.states[j + 1], t.actions[j]);
  }

  /** A switch that returns an error is retried by the next message from
      any device: it leaves the state, and so the debounce decision,
      untouched, and the loop goes on to the next message. */
  lemma FailedSwitchChangesNothing(init: State, ds: seq<Delivery>, i: nat)
    requires i < |Run(init, ds, false).actions|
    requires Run(init, ds, false).actions[i].SwitchFailed?
    ensures Run(init, ds, false).states[i + 1] == Run(init, ds, false).states[i]
    ensures ds[i].outcome == SwitchErr
    ensures i + 1 < |ds| ==> i + 1 < |Run(init, ds, false).actions|
  {
    var t := Run(init, ds, false);
    assert Step(t.states[i], ds[i], false) == (t.states[i + 1], t.actions[i]);
  }

  /** A panicking switch is the end: the message that triggers it is the
      last one handled, whatever is still queued. */
  lemma PanicEndsDaemon(init: State, ds: seq<Delivery>, i: nat)
    requires i < |ds| && ds[i].outcome == SwitchPanic
    requires forall l :: 0 <= l < i && l < |Run(init, ds, false).actions| ==> !Run(init, ds, false).actions[l].Crashed?
    requires Admits(Run(init, ds, false).states[i], ds[i])
    ensures |Run(init, ds, false).actions| == i + 1
    ensures Run(init, ds, false).actions[i] == Crashed(ds[i].layout)
  {
    var t := Run(init, ds, false);
    assert i < |t.actions|;
    assert Step(t.states[i], ds[i], false) == (t.states[i + 1], t.actions[i]);
  }
}

=== FILE: input.dfy ===
/** Keyboard discovery (src/input.rs): scanning /dev/input/by-id/ for the
    primary event interface of every device whose name says it is a
    keyboard, deduplicated by name.

    The directory scan, `Device::open` and `fs::canonicalize` are foreign
    I/O; each is represented by its outcome as recorded in the entries. */
module Input {
  import opened Base

  /** What evdev reports for an opened device. */
  datatype Device = Device(name: Option<string>, vendor: u16, product: u16)

  /** One directory entry. `fileName` is `None` when the name is missing or
      not UTF-8; `device` is `None` when `Device::open` fails; `canonical`
      is the symlink target, `None` when `fs::canonicalize` fails. */
  datatype Entry = Entry(fileName: Option<string>, device: Option<Device>, canonical: Option<string>)

  /** An item of the `read_dir` iterator: an entry, or an I/O error. */
  datatype DirItem = Unreadable | Readable(entry: Entry)

  /** The state of the by-id directory. */
  datatype ById = Missing | Unlistable | Listing(items: seq<DirItem>)

  /** The `Keyboard` record. */
  datatype Keyboard = Keyboard(name: string, devicePath: string, vendorId: u16, productId: u16)

  datatype ListError =
    | NoAccess            // the directory does not exist ("are you in the 'input' group?")
    | ReadDirFailed       // `fs::read_dir` failed
    | EntryFailed         // the iterator yielded an error
    | CanonicalizeFailed  // an accepted entry's path could not be resolved

  const EventKbdSuffix: string := "-event-kbd"
  const UnknownName: string := "Unknown"

  /** The file name as the source sees it: `""` when there is none. */
  function FileNameOf(e: Entry): string {
    e.fileName.UnwrapOr("")
  }

  /** The device name, `"Unknown"` when the device reports none. */
  function DisplayName(d: Device): string {
    d.name.UnwrapOr(UnknownName)
  }

  /** The name heuristic: mentions "Keyboard" and not "Receiver". */
  predicate IsKeyboardName(name: string) {
    Contains(name, "Keyboard") && !Contains(name, "Receiver")
  }

  /** An entry that makes it into the result: an `-event-kbd` link to a
      device that opens and whose name passes the heuristic. */
  predicate Accepted(e: Entry) {
    && EndsWith(FileNameOf(e), EventKbdSuffix)
    && e.device.Some?
    && IsKeyboardName(DisplayName(e.device.value))
  }

  /** An item that aborts the whole scan through a `?`. */
  predicate Aborts(item: DirItem) {
    item.Unreadable? || (Accepted(item.entry) && item.entry.canonical.None?)
  }

  predicate AcceptedAt(items: seq<DirItem>, i: int) {
    0 <= i < |items| && items[i].Readable? && Accepted(items[i].entry)
  }

  function NameAt(items: seq<DirItem>, i: int): string
    requires AcceptedAt(items, i)
  {
    DisplayName(items[i].entry.device.value)
  }

  /** The keyboard an accepted, resolvable entry contributes. */
  function KeyboardOf(e: Entry): (kb: Keyboard)
    requires Accepted(e) && e.canonical.Some?
    ensures kb.name == DisplayName(e.device.value)
    ensures kb.vendorId == e.device.value.vendor && kb.productId == e.device.value.product
  {
    Keyboard(DisplayName(e.device.value), e.canonical.value, e.device.value.vendor, e.device.value.product)
  }

  /** Item `i` is the last accepted item named `name`. */
  predicate LastNamed(items: seq<DirItem>, i: int, name: string) {
    && AcceptedAt(items, i)
    && NameAt(items, i) == name
    && forall j :: i < j < |items| && AcceptedAt(items, j) ==> NameAt(items, j) != name
  }

  /** One iteration of the scan loop: an unreadable item or an accepted
      entry that cannot be resolved aborts; an accepted entry stores its
      keyboard under its name; anything else is skipped. */
  function Absorb(found: map<string, Keyboard>, item: DirItem): (r: Result<map<string, Keyboard>, ListError>)
    ensures r.Success? <==> !Aborts(item)
  {
    if item.Unreadable? then Failure(EntryFailed)
    else if !Accepted(item.entry) then Success(found)
    else if item.entry.canonical.None? then Failure(CanonicalizeFailed)
    else Success(found[DisplayName(item.entry.device.value) := KeyboardOf(item.entry)])
  }

  /** The scan loop with its `HashMap` keyed by name: every accepted item
      overwrites the entry for its name; an aborting item ends the scan
      with an error. Every key is the name of the keyboard stored under it,
      and every name passes the heuristic. */
  function Scan(items: seq<DirItem>): (r: Result<map<string, Keyboard>, ListError>)
    ensures r.Success? <==> forall i :: 0 <= i < |items| ==> !Aborts(items[i])
    ensures r.Success? ==> forall n :: n in r.value ==> r.value[n].name == n && IsKeyboardName(n)
    decreases |items|
  {
    if |items| == 0 then Success(map[])
    else
      var init := items[..|items| - 1];
      assert forall i :: 0 <= i < |init| ==> init[i] == items[i];
      match Scan(init)
      case Failure(err) => Failure(err)
      case Success(found) => Absorb(found, items[|items| - 1])
  }

  /** `list_keyboards`, its result keyed by name (the source's `Vec` comes
      from `HashMap::into_values` and has no specified order). */
  function ListKeyboards(dir: ById): (r: Result<map<string, Keyboard>, ListError>)
    ensures dir.Missing? ==> r == Failure(NoAccess)
    ensures dir.Unlistable? ==> r == Failure(ReadDirFailed)
    ensures r.Success? <==> dir.Listing? && forall i :: 0 <= i < |dir.items| ==> !Aborts(dir.items[i])
    ensures r.Success? ==> UnknownName !in r.value
  {
    match dir
    case Missing => Failure(NoAccess)
    case Unlistable => Failure(ReadDirFailed)
    case Listing(items) =>
      var r := Scan(items);
      assert !Contains(UnknownName, "Keyboard");
      r
  }

  /** One step of the scan: the last item either leaves the map alone or
      stores its keyboard under its name. */
  lemma ScanLast(items: seq<DirItem>)
    requires |items| > 0 && Scan(items).Success?
    ensures Scan(items[..|items| - 1]).Success?
    ensures AcceptedAt(items, |items| - 1) ==>
      Scan(items).value == Scan(items[..|items| - 1]).value[NameAt(items, |items| - 1) := KeyboardOf(items[|items| - 1].entry)]
    ensures !AcceptedAt(items, |items| - 1) ==> Scan(items).value == Scan(items[..|items| - 1]).value
  {
  }

  /** The names found are exactly those of the accepted items. */
  lemma {:induction false} ScanFindsEveryName(items: seq<DirItem>)
    requires Scan(items).Success?
    ensures forall i :: AcceptedAt(items, i) ==> NameAt(items, i) in Scan(items).value
    ensures forall n :: n in Scan(items).value ==> exists i :: AcceptedAt(items, i) && NameAt(items, i) == n
    decreases |items|
  {
    if |items| > 0 {
      var init := items[..|items| - 1];
      var k := |items| - 1;
      ScanLast(items);
      ScanFindsEveryName(init);
      forall i | AcceptedAt(items, i)
        ensures NameAt(items, i) in Scan(items).value
      {
        if i < k {
          assert AcceptedAt(init, i) && NameAt(init, i) == NameAt(items, i);
        }
      }
      forall n | n in Scan(items).value
        ensures exists i :: AcceptedAt(items, i) && NameAt(items, i) == n
      {
        if !(AcceptedAt(items, k) && NameAt(items, k) == n) {
          assert n in Scan(init).value;
          var i :| AcceptedAt(init, i) && NameAt(init, i) == n;
          assert AcceptedAt(items, i) && NameAt(items, i) == n;
        }
      }
    }
  }

  /** The last item named `n` in a prefix stays the last one when the next
      item is not an accepted item named `n`. */
  lemma LastNamedExtends(items: seq<DirItem>, i: int, n: string)
    requires |items| > 0
    requires LastNamed(items[..|items| - 1], i, n)
    requires !(AcceptedAt(items, |items| - 1) && NameAt(items, |items| - 1) == n)
    ensures LastNamed(items, i, n)
    ensures items[i] == items[..|items| - 1][i]
  {
    var init := items[..|items| - 1];
    forall j | i < j < |items| && AcceptedAt(items, j)
      ensures NameAt(items, j) != n
    {
      if j < |items| - 1 {
        assert items[j] == init[j];
        assert AcceptedAt(init, j);
      }
    }
  }

  /** `m` stores under `n` the keyboard of the last accepted item named `n`. */
  ghost predicate StoresLast(items: seq<DirItem>, m: map<string, Keyboard>, n: string)
    requires n in m
  {
    exists i :: LastNamed(items, i, n) && items[i].entry.canonical.Some? && m[n] == KeyboardOf(items[i].entry)
  }

  /** Each name is stored with the keyboard of the LAST accepted item of
      that name: the same entry supplies the name, the ids and the path. */
  lemma {:induction false} ScanKeepsLastOfEachName(items: seq<DirItem>)
    requires Scan(items).Success?
    ensures forall n :: n in Scan(items).value ==> StoresLast(items, Scan(items).value, n)
    decreases |items|
  {
    if |items| > 0 {
      ScanLast(items);
      ScanKeepsLastOfEachName(items[..|items| - 1]);
      forall n | n in Scan(items).value
        ensures StoresLast(items, Scan(items).value, n)
      {
        StoresLastStep(items, items[..|items| - 1], n);
      }
    }
  }

  /** The inductive step: what the prefix stored for `n` is still the last
      item named `n`, unless the new item is the one named `n`. */
  lemma StoresLastStep(items: seq<DirItem>, init: seq<DirItem>, n: string)
    requires |items| > 0 && init == items[..|items| - 1]
    requires Scan(items).Success? && n in Scan(items).value && Scan(init).Success?
    requires forall m :: m in Scan(init).value ==> StoresLast(init, Scan(init).value, m)
    ensures StoresLast(items, Scan(items).value, n)
  {
    var k := |items| - 1;
    ScanLast(items);
    if AcceptedAt(items, k) && NameAt(items, k) == n {
      assert LastNamed(items, k, n);
    } else {
      assert n in Scan(init).value;
      assert StoresLast(init, Scan(init).value, n);
      var i :| LastNamed(init, i, n) && init[i].entry.canonical.Some? && Scan(init).value[n] == KeyboardOf(init[i].entry);
      LastNamedExtends(items, i, n);
      assert Scan(items).value[n] == Scan(init).value[n];
      assert LastNamed(items, i, n);
    }
  }

  /** Two accepted items with the same name leave one keyboard, the one
      scanned later. */
  lemma SameNameCollapses(items: seq<DirItem>, i: int, j: int)
    requires Scan(items).Success?
    requires AcceptedAt(items, i) && AcceptedAt(items, j) && i < j
    requires NameAt(items, i) == NameAt(items, j)
    requires forall l :: j < l < |items| && AcceptedAt(items, l) ==> NameAt(items, l) != NameAt(items, j)
    ensures NameAt(items, j) in Scan(items).value
    ensures Scan(items).value[NameAt(items, j)] == KeyboardOf(items[j].entry)
  {
    ScanFindsEveryName(items);
    ScanKeepsLastOfEachName(items);
    var n := NameAt(items, j);
    assert StoresLast(items, Scan(items).value, n);
    var l :| LastNamed(items, l, n) && items[l].entry.canonical.Some? && Scan(items).value[n] == KeyboardOf(items[l].entry);
    assert l == j;
  }

  /** An item skipped by the scan (not an `-event-kbd` link, or a device
      that does not open) has no effect on the result: it is neither an
      error nor a keyboard. */
  lemma {:induction false} ScanIgnoresSkipped(before: seq<DirItem>, skipped: Entry, after: seq<DirItem>)
    requires !EndsWith(FileNameOf(skipped), EventKbdSuffix) || skipped.device.None?
    ensures Scan(before + [Readable(skipped)] + after) == Scan(before + after)
    decreases |after|
  {
    if |after| == 0 {
      assert (before + [Readable(skipped)] + after)[..|before|] == before;
      assert before + after == before;
    } else {
      var whole := before + [Readable(skipped)] + after;
      var init := after[..|after| - 1];
      ScanIgnoresSkipped(before, skipped, init);
      assert whole[..|whole| - 1] == before + [Readable(skipped)] + init;
      assert (before + after)[..|before + after| - 1] == before + init;
      assert whole[|whole| - 1] == (before + after)[|before + after| - 1];
    }
  }
}

=== FILE: json.dfy ===
/** The part of a `serde_json::Value` that the layout-service client reads.
    An integer literal is kept as its mathematical value; serde_json stores
    one that fits in 64 bits as an integer and anything else as a float,
    which is what `AsU64` reproduces. */
module Json {
  import opened Base

  datatype Value =
    | Null
    | Bool(b: bool)
    | Int(i: int)
    | Float
    | Str(s: string)
    | Array(items: seq<Value>)
    | Object(fields: map<string, Value>)

  /** `value["key"]`: the field of an object, `Null` for a missing field or
      for any value that is not an object. */
  function Field(v: Value, key: string): (r: Value)
  {
    if v.Object? && key in v.fields then v.fields[key] else Null
  }

  /** `Value::as_u64`. */
  function AsU64(v: Value): (r: Option<nat>)
  {
    if v.Int? && 0 <= v.i < U64_LIMIT then Some(v.i) else None
  }

  /** `Value::as_array`. */
  function AsArray(v: Value): (r: Option<seq<Value>>)
  {
    if v.Array? then Some(v.items) else None
  }

  /** The string payloads of `items`, in order, skipping every element that
      is not a string (`filter_map(as_str)`). */
  function Strings(items: seq<Value>): (r: seq<string>)
    ensures |r| <= |items|
    decreases |items|
  {
    if |items| == 0 then []
    else
      var init := Strings(items[..|items| - 1]);
      var last := items[|items| - 1];
      if last.Str? then init + [last.s] else init
  }

  /** The positions of the string elements of `items`, ascending. */
  function StringPositions(items: seq<Value>): (r: seq<nat>)
    ensures forall k :: 0 <= k < |r| ==> r[k] < |items| && items[r[k]].Str?
    ensures forall k, l :: 0 <= k < l < |r| ==> r[k] < r[l]
    ensures forall i :: 0 <= i < |items| && items[i].Str? ==> i in r
    decreases |items|
  {
    if |items| == 0 then []
    else
      var init := StringPositions(items[..|items| - 1]);
      if items[|items| - 1].Str? then init + [|items| - 1] else init
  }

  /** `Strings` keeps exactly the string elements and keeps them in order:
      its k-th result is the payload at the k-th string position. */
  lemma {:induction false} StringsAreStringElementsInOrder(items: seq<Value>)
    ensures |Strings(items)| == |StringPositions(items)|
    ensures forall k :: 0 <= k < |Strings(items)| ==>
      Strings(items)[k] == items[StringPositions(items)[k]].s
    decreases |items|
  {
    if |items| > 0 {
      var init := items[..|items| - 1];
      StringsAreStringElementsInOrder(init);
      forall k | 0 <= k < |StringPositions(init)|
        ensures items[StringPositions(init)[k]] == init[StringPositions(init)[k]]
      {
      }
    }
  }

  /** The JSON array of the strings `names`. */
  function StringArray(names: seq<string>): (r: seq<Value>)
    ensures |r| == |names|
    ensures forall k :: 0 <= k < |r| ==> r[k] == Str(names[k])
  {
    seq(|names|, k requires 0 <= k < |names| => Str(names[k]))
  }

  /** An array made only of strings yields exactly those strings. */
  lemma {:induction false} StringsOfStringArray(names: seq<string>)
    ensures Strings(StringArray(names)) == names
    decreases |names|
  {
    if |names| > 0 {
      var init := names[..|names| - 1];
      StringsOfStringArray(init);
      assert StringArray(names)[..|names| - 1] == StringArray(init);
      assert names == init + [names[|names| - 1]];
    }
  }
}

=== FILE: keys.dfy ===
/** Device identity strings (src/main.rs): the `{:04x}:{:04x}` key the
    daemon computes for a detected keyboard, the `vendor_id:product_id` key
    it builds from each configuration entry, and the layout map keyed by
    the latter. */
module DeviceKeys {
  import opened Base

  const HexDigits: string := "0123456789abcdef"

  /** A lower-case hex digit, as `{:x}` writes them. */
  predicate IsHexDigit(c: char) {
    '0' <= c <= '9' || 'a' <= c <= 'f'
  }

  /** The value of a lower-case hex digit, 0 for any other character. */
  function DigitValue(c: char): (v: nat)
    ensures v < 16
    ensures IsHexDigit(c) ==> HexDigits[v] == c
  {
    if '0' <= c <= '9' then (c - '0') as nat
    else if 'a' <= c <= 'f' then (c - 'a') as nat + 10
    else 0
  }

  lemma DigitValueOfDigit(d: nat)
    requires d < 16
    ensures IsHexDigit(HexDigits[d]) && DigitValue(HexDigits[d]) == d
  {
  }

  /** Reads a string of hex digits, most significant first. */
  function ParseHex(s: string): nat
    decreases |s|
  {
    if |s| == 0 then 0 else ParseHex(s[..|s| - 1]) * 16 + DigitValue(s[|s| - 1])
  }

  function Pow16(n: nat): (p: nat)
    ensures p > 0
  {
    if n == 0 then 1 else 16 * Pow16(n - 1)
  }

  /** The low `width` hex digits of `x`, zero-padded, most significant
      first: `{:0width$x}` for an `x` that fits. */
  function HexWidth(x: nat, width: nat): (s: string)
    ensures |s| == width
    decreases width
  {
    if width == 0 then [] else HexWidth(x / 16, width - 1) + [HexDigits[x % 16]]
  }

  /** Every character `HexWidth` writes is a lower-case hex digit. */
  lemma {:induction false} HexWidthDigits(x: nat, width: nat)
    ensures forall i :: 0 <= i < width ==> IsHexDigit(HexWidth(x, width)[i])
    decreases width
  {
    if width > 0 {
      HexWidthDigits(x / 16, width - 1);
      DigitValueOfDigit(x % 16);
      assert forall i :: 0 <= i < width - 1 ==> HexWidth(x, width)[i] == HexWidth(x / 16, width - 1)[i];
    }
  }

  /** Reading back a value that fits in `width` digits gives the value. */
  lemma {:induction false} HexWidthRoundTrip(x: nat, width: nat)
    requires x < Pow16(width)
    ensures ParseHex(HexWidth(x, width)) == x
    decreases width
  {
    if width > 0 {
      var s := HexWidth(x, width);
      var init := HexWidth(x / 16, width - 1);
      assert s[..width - 1] == init;
      assert x / 16 < Pow16(width - 1);
      HexWidthRoundTrip(x / 16, width - 1);
      DigitValueOfDigit(x % 16);
    }
  }

  /** `format!("{:04x}", x)` for a u16: four lower-case hex digits,
      zero-padded. */
  function Hex4(x: u16): (s: string)
    ensures |s| == 4
  {
    HexWidth(x, 4)
  }

  /** Every character of `Hex4(x)` is a lower-case hex digit. */
  lemma Hex4Digits(x: u16)
    ensures forall i :: 0 <= i < 4 ==> IsHexDigit(Hex4(x)[i])
  {
    HexWidthDigits(x, 4);
  }

  /** Reading `Hex4(x)` back as hex gives `x`: a u16 fits in four digits. */
  lemma Hex4RoundTrip(x: u16)
    ensures ParseHex(Hex4(x)) == x
  {
    assert Pow16(4) == U16_LIMIT;
    HexWidthRoundTrip(x, 4);
  }

  /** Distinct ids have distinct hex forms. */
  lemma Hex4Injective(a: u16, b: u16)
    requires Hex4(a) == Hex4(b)
    ensures a == b
  {
    Hex4RoundTrip(a);
    Hex4RoundTrip(b);
  }

  /** The key the daemon looks a detected keyboard up by: two four-digit
      hex ids around a colon. */
  function DeviceKey(vendor: u16, product: u16): (k: string)
    ensures |k| == 9 && k[4] == ':'
  {
    Hex4(vendor) + ":" + Hex4(product)
  }

  /** Every character of a device key but the colon is a hex digit. */
  lemma DeviceKeyDigits(vendor: u16, product: u16)
    ensures forall i :: 0 <= i < 9 && i != 4 ==> IsHexDigit(DeviceKey(vendor, product)[i])
  {
    Hex4Digits(vendor);
    Hex4Digits(product);
    var k := DeviceKey(vendor, product);
    assert forall i :: 0 <= i < 4 ==> k[i] == Hex4(vendor)[i];
    assert forall i :: 5 <= i < 9 ==> k[i] == Hex4(product)[i - 5];
  }

  /** Two keyboards get the same key exactly when their ids agree. */
  lemma DeviceKeyInjective(v1: u16, p1: u16, v2: u16, p2: u16)
    ensures DeviceKey(v1, p1) == DeviceKey(v2, p2) <==> v1 == v2 && p1 == p2
  {
    if DeviceKey(v1, p1) == DeviceKey(v2, p2) {
      assert Hex4(v1) == DeviceKey(v1, p1)[..4];
      assert Hex4(v2) == DeviceKey(v2, p2)[..4];
      assert Hex4(p1) == DeviceKey(v1, p1)[5..];
      assert Hex4(p2) == DeviceKey(v2, p2)[5..];
      Hex4Injective(v1, v2);
      Hex4Injective(p1, p2);
    }
  }

  /** A configuration entry (`KeyboardConfig`); the ids are kept as the raw
      strings of the configuration file. */
  datatype KeyboardConfig = KeyboardConfig(name: string, vendorId: string, productId: string, layoutIndex: u32)

  /** `format!("{}:{}", kb.vendor_id, kb.product_id)`. */
  function ConfigKey(c: KeyboardConfig): string {
    c.vendorId + ":" + c.productId
  }

  /** A configuration key holds the raw strings from the file, unchanged,
      around a colon: nothing is normalised. */
  lemma ConfigKeyParts(c: KeyboardConfig) returns (k: string)
    ensures k == ConfigKey(c)
    ensures |k| == |c.vendorId| + 1 + |c.productId|
    ensures k[..|c.vendorId|] == c.vendorId && k[|c.vendorId|] == ':' && k[|c.vendorId| + 1..] == c.productId
  {
    k := ConfigKey(c);
    assert k[..|c.vendorId|] == c.vendorId;
    assert k[|c.vendorId| + 1..] == c.productId;
  }

  /** A configuration key equals a device key only when the entry's raw
      strings are exactly the device's four-digit lower-case ids: an
      upper-case or unpadded id in the file never matches. */
  lemma ConfigKeyMatchesDevice(c: KeyboardConfig, vendor: u16, product: u16)
    ensures ConfigKey(c) == DeviceKey(vendor, product) <==>
      c.vendorId == Hex4(vendor) && c.productId == Hex4(product)
  {
    var k := DeviceKey(vendor, product);
    if ConfigKey(c) == k {
      var n := |c.vendorId|;
      assert ConfigKey(c)[n] == ':';
      DeviceKeyDigits(vendor, product);
      assert n == 4;
      assert k[..4] == Hex4(vendor) && k[5..] == Hex4(product);
      assert ConfigKey(c)[..4] == c.vendorId && ConfigKey(c)[5..] == c.productId;
    }
  }

  /** What the layout map holds for a key: the entry's name (for logging)
      and its layout index. */
  datatype Binding = Binding(name: string, layout: u32)

  /** The layout map: one insertion per configuration entry, in file order,
      so a later entry with the same key replaces an earlier one. */
  function LayoutMap(configs: seq<KeyboardConfig>): (m: map<string, Binding>)
    ensures forall i :: 0 <= i < |configs| ==> ConfigKey(configs[i]) in m
    ensures forall k :: k in m ==> exists i :: 0 <= i < |configs| && ConfigKey(configs[i]) == k
    decreases |configs|
  {
    if |configs| == 0 then map[]
    else
      var init := configs[..|configs| - 1];
      var last := configs[|configs| - 1];
      var m := LayoutMap(init);
      assert forall i :: 0 <= i < |init| ==> init[i] == configs[i];
      m[ConfigKey(last) := Binding(last.name, last.layoutIndex)]
  }

  /** Entry `i` is the last configuration entry with key `k`. */
  predicate LastKeyed(configs: seq<KeyboardConfig>, i: int, k: string) {
    && 0 <= i < |configs|
    && ConfigKey(configs[i]) == k
    && forall j :: i < j < |configs| ==> ConfigKey(configs[j]) != k
  }

  /** Each key is bound to the name and layout of the last entry with that
      key. */
  lemma {:induction false} LayoutMapLastWins(configs: seq<KeyboardConfig>, i: int)
    requires 0 <= i < |configs|
    requires LastKeyed(configs, i, ConfigKey(configs[i]))
    ensures LayoutMap(configs)[ConfigKey(configs[i])] == Binding(configs[i].name, configs[i].layoutIndex)
    decreases |configs|
  {
    var k := |configs| - 1;
    if i < k {
      var init := configs[..k];
      assert init[i] == configs[i];
      assert ConfigKey(configs[k]) != ConfigKey(configs[i]);
      assert LastKeyed(init, i, ConfigKey(init[i])) by {
        forall j | i < j < |init|
          ensures ConfigKey(init[j]) != ConfigKey(configs[i])
        {
          assert init[j] == configs[j];
        }
      }
      LayoutMapLastWins(init, i);
    }
  }
}

=== FILE: monitor.dfy ===
/** The per-keyboard tasks (`monitor_keyboard` and `test_keyboard` in
    src/main.rs): read events from one device until the stream fails, and
    send one message for every event whose value is 1.

    The event stream is a finite sequence of what `next_event` returns; the
    channel is the sequence of messages sent. A send to a closed channel is
    ignored by the source (`let _ =`), so it is not modelled. */
module Monitor {
  import opened Base

  /** An evdev input event: its type, code and value. */
  datatype InputEvent = InputEvent(kind: nat, code: nat, value: int)

  /** One result of `next_event`: an event, or an error (the device went
      away or the read failed). */
  datatype StreamItem = Event(event: InputEvent) | StreamError

  /** The filter of both loops: the value is 1. Only the value is looked
      at, so any event type with value 1 qualifies, not only key presses. */
  predicate Activates(e: InputEvent) {
    e.value == 1
  }

  /** The stream contains no error. */
  predicate Live(stream: seq<StreamItem>) {
    forall i :: 0 <= i < |stream| ==> stream[i].Event?
  }

  /** The length of the stream up to (not including) its first error. */
  function LiveLength(stream: seq<StreamItem>): (n: nat)
    ensures n <= |stream|
    ensures Live(stream[..n])
    ensures n < |stream| ==> stream[n].StreamError?
    decreases |stream|
  {
    if |stream| == 0 || stream[0].StreamError? then 0
    else
      var n := 1 + LiveLength(stream[1..]);
      assert forall i :: 1 <= i < n ==> stream[..n][i] == stream[1..][..n - 1][i - 1];
      n
  }

  /** The messages the loop sends with tag `tag`: one per activating event,
      in stream order, and nothing once the stream has failed. */
  function Activations<T>(tag: T, stream: seq<StreamItem>): (sent: seq<T>)
    ensures forall i :: 0 <= i < |sent| ==> sent[i] == tag
    ensures |sent| <= LiveLength(stream)
    decreases |stream|
  {
    if |stream| == 0 then []
    else match stream[0]
      case StreamError => []
      case Event(e) => (if Activates(e) then [tag] else []) + Activations(tag, stream[1..])
  }

  /** The number of activating events in a stream without errors. */
  function PressCount(events: seq<StreamItem>): nat
    decreases |events|
  {
    if |events| == 0 then 0
    else PressCount(events[..|events| - 1]) + (match events[|events| - 1]
                                                  case Event(e) => if Activates(e) then 1 else 0
                                                  case StreamError => 0)
  }

  /** Once the stream has failed, nothing later is read: what follows the
      first error never produces a message. */
  lemma {:induction false} ActivationsStopAtError<T>(tag: T, before: seq<StreamItem>, after: seq<StreamItem>)
    requires Live(before)
    ensures Activations(tag, before + [StreamError] + after) == Activations(tag, before)
    decreases |before|
  {
    if |before| > 0 {
      assert (before + [StreamError] + after)[1..] == before[1..] + [StreamError] + after;
      ActivationsStopAtError(tag, before[1..], after);
    } else {
      assert (before + [StreamError] + after)[0] == StreamError;
    }
  }

  /** An error-free prefix contributes its own messages, followed by those
      of the rest of the stream. */
  lemma {:induction false} ActivationsAppend<T>(tag: T, a: seq<StreamItem>, b: seq<StreamItem>)
    requires Live(a)
    ensures Activations(tag, a + b) == Activations(tag, a) + Activations(tag, b)
    decreases |a|
  {
    if |a| == 0 {
      assert a + b == b;
    } else {
      assert (a + b)[1..] == a[1..] + b;
      ActivationsAppend(tag, a[1..], b);
    }
  }

  /** On an error-free stream one message is sent per activating event. */
  lemma {:induction false} ActivationsCountPresses<T>(tag: T, events: seq<StreamItem>)
    requires Live(events)
    ensures |Activations(tag, events)| == PressCount(events)
    decreases |events|
  {
    if |events| > 0 {
      var init := events[..|events| - 1];
      var last := events[|events| - 1];
      assert events == init + [last];
      ActivationsAppend(tag, init, [last]);
      ActivationsCountPresses(tag, init);
    }
  }

  /** The whole stream sends what its live prefix sends. */
  lemma ActivationsOfLivePrefix<T>(tag: T, stream: seq<StreamItem>)
    ensures Activations(tag, stream) == Activations(tag, stream[..LiveLength(stream)])
    ensures |Activations(tag, stream)| == PressCount(stream[..LiveLength(stream)])
  {
    var n := LiveLength(stream);
    if n < |stream| {
      assert stream == stream[..n] + [StreamError] + stream[n + 1..];
      ActivationsStopAtError(tag, stream[..n], stream[n + 1..]);
    } else {
      assert stream[..n] == stream;
    }
    ActivationsCountPresses(tag, stream[..n]);
  }

  /** Any event with value 1 sends a message, whatever its type: a
      synchronisation or miscellaneous event reported with value 1 counts
      as a key press. */
  lemma AnyValueOneEventActivates<T>(tag: T, kind: nat, code: nat)
    ensures Activations(tag, [Event(InputEvent(kind, code, 1))]) == [tag]
  {
  }

  /** `monitor_keyboard`: the loop over the stream, sending
      `(device_id, target_layout)` for every activating event. */
  method MonitorKeyboard(deviceId: string, targetLayout: u32, stream: seq<StreamItem>)
    returns (sent: seq<(string, u32)>)
    ensures sent == Activations((deviceId, targetLayout), stream)
    ensures |sent| == PressCount(stream[..LiveLength(stream)])
  {
    sent := [];
    var i := 0;
    while i < |stream| && stream[i].Event?
      invariant 0 <= i <= |stream|
      invariant Live(stream[..i])
      invariant sent == Activations((deviceId, targetLayout), stream[..i])
      decreases |stream| - i
    {
      var e := stream[i].event;
      assert stream[..i + 1] == stream[..i] + [stream[i]];
      ActivationsAppend((deviceId, targetLayout), stream[..i], [stream[i]]);
      if e.value == 1 {
        sent := sent + [(deviceId, targetLayout)];
      }
      i := i + 1;
    }
    if i < |stream| {
      assert stream == stream[..i] + [StreamError] + stream[i + 1..];
      ActivationsStopAtError((deviceId, targetLayout), stream[..i], stream[i + 1..]);
    } else {
      assert stream[..i] == stream;
    }
    ActivationsOfLivePrefix((deviceId, targetLayout), stream);
  }

  /** `test_keyboard`: the same loop, sending the keyboard's name. */
  method TestKeyboard(name: string, stream: seq<StreamItem>) returns (sent: seq<string>)
    ensures sent == Activations(name, stream)
    ensures |sent| == PressCount(stream[..LiveLength(stream)])
  {
    sent := [];
    var i := 0;
    while i < |stream| && stream[i].Event?
      invariant 0 <= i <= |stream|
      invariant Live(stream[..i])
      invariant sent == Activations(name, stream[..i])
      decreases |stream| - i
    {
      var e := stream[i].event;
      assert stream[..i + 1] == stream[..i] + [stream[i]];
      ActivationsAppend(name, stream[..i], [stream[i]]);
      if e.value == 1 {
        sent := sent + [name];
      }
      i := i + 1;
    }
    if i < |stream| {
      assert stream == stream[..i] + [StreamError] + stream[i + 1..];
      ActivationsStopAtError(name, stream[..i], stream[i + 1..]);
    } else {
      assert stream[..i] == stream;
    }
    ActivationsOfLivePrefix(name, stream);
  }
}

=== FILE: niri.dfy ===
/** The layout-service client (src/niri.rs): reading the layout list and the
    current index from `niri msg --json keyboard-layouts`, and switching to
    an absolute layout index by issuing "switch-layout next" commands.

    The niri compositor itself is not part of this model. It is represented
    by a `Service` state, and the one assumption made about it is `Next`:
    a "next" command moves the current index one step forward, cyclically. */
module Niri {
  import opened Base
  import opened Json
  import Arith

  /** What running one `niri msg ...` process produced: the process could
      not be spawned, or it printed something that is or is not JSON. */
  datatype Reply = NotSpawned | Output(stdout: Option<Value>)

  datatype NiriError =
    | CannotSpawn        // `Command::output()` failed
    | NotJson            // `serde_json::from_slice` failed
    | InvalidResponse    // `names` missing or not an array
    | AddOverflow        // panic: `target + total` overflows u32
    | SubOverflow        // panic: `target + total - current` underflows u32
    | DivisionByZero     // panic: `% total` with no layouts
    | NextFailed         // a "switch-layout next" process could not be spawned

  /** The errors that are debug-build arithmetic panics rather than `Err`
      values: the caller cannot handle them. */
  predicate Panics(e: NiriError) {
    e.AddOverflow? || e.SubOverflow? || e.DivisionByZero?
  }

  function ParseReply(reply: Reply): Result<Value, NiriError> {
    match reply
    case NotSpawned => Failure(CannotSpawn)
    case Output(None) => Failure(NotJson)
    case Output(Some(v)) => Success(v)
  }

  /** `get_layouts`: the string elements of the reply's `names` array. */
  function GetLayouts(reply: Reply): (r: Result<seq<string>, NiriError>)
    ensures reply.NotSpawned? ==> r == Failure(CannotSpawn)
    ensures reply == Output(None) ==> r == Failure(NotJson)
    ensures r == Failure(InvalidResponse) <==>
      reply.Output? && reply.stdout.Some? && !Field(reply.stdout.value, "names").Array?
    ensures r.Success? <==>
      reply.Output? && reply.stdout.Some? && Field(reply.stdout.value, "names").Array?
    ensures r.Success? ==>
      var items := Field(reply.stdout.value, "names").items;
      && |r.value| == |StringPositions(items)|
      && forall k :: 0 <= k < |r.value| ==> r.value[k] == items[StringPositions(items)[k]].s
  {
    match ParseReply(reply)
    case Failure(e) => Failure(e)
    case Success(v) =>
      match AsArray(Field(v, "names"))
      case None => Failure(InvalidResponse)
      case Some(items) =>
        StringsAreStringElementsInOrder(items);
        Success(Strings(items))
  }

  /** `get_current_index`: `current_idx` truncated to 32 bits, or 0 when it
      is missing or not an unsigned 64-bit integer. */
  function GetCurrentIndex(reply: Reply): (r: Result<u32, NiriError>)
    ensures reply.NotSpawned? ==> r == Failure(CannotSpawn)
    ensures reply == Output(None) ==> r == Failure(NotJson)
    ensures r.Success? <==> reply.Output? && reply.stdout.Some?
    ensures r.Success? && AsU64(Field(reply.stdout.value, "current_idx")).None? ==> r.value == 0
    ensures r.Success? ==>
      var idx := Field(reply.stdout.value, "current_idx");
      idx.Int? && 0 <= idx.i < U64_LIMIT ==> r.value == idx.i % U32_LIMIT
  {
    match ParseReply(reply)
    case Failure(e) => Failure(e)
    case Success(v) => Success(AsU32(AsU64(Field(v, "current_idx")).UnwrapOr(0)))
  }

  /** The compositor's keyboard-layout state. */
  datatype Service = Service(names: seq<string>, current: nat)

  /** MODELLING ASSUMPTION about the compositor (its code is not part of this
      model): "switch-layout next" advances the current index by one,
      wrapping after the last layout, and does nothing without layouts. */
  function Next(s: Service): Service {
    if |s.names| == 0 then s
    else s.(current := (s.current + 1) % |s.names|)
  }

  /** The state after `k` successful "next" commands. */
  function Advance(s: Service, k: nat): Service
    decreases k
  {
    if k == 0 then s else Advance(Next(s), k - 1)
  }

  /** The JSON niri prints for `keyboard-layouts` in state `s`. */
  function Render(s: Service): Value {
    Object(map[
      "names" := Array(StringArray(s.names)),
      "current_idx" := Int(s.current)])
  }

  /** The reply of a successful query against state `s`. */
  function Query(s: Service): Reply {
    Output(Some(Render(s)))
  }

  /** Querying a service reads back its layout names and current index. */
  lemma QueryRoundTrip(s: Service)
    requires s.current < U32_LIMIT
    ensures GetLayouts(Query(s)) == Success(s.names)
    ensures GetCurrentIndex(Query(s)) == Success(s.current)
  {
    StringsOfStringArray(s.names);
  }

  /** `(target + total - current) % total` evaluated in u32 with Rust's
      debug-build checks: the addition, then the subtraction, then the
      remainder can each panic. On success it is the forward cyclic
      distance from `current` to `target`: fewer than `total` steps, landing
      on `target` modulo `total`, and no shorter walk lands there. */
  function Steps(current: u32, target: u32, total: u32): (r: Result<nat, NiriError>)
    ensures r == Failure(AddOverflow) <==> target + total >= U32_LIMIT
    ensures r == Failure(SubOverflow) <==> target + total < U32_LIMIT && current > target + total
    ensures r == Failure(DivisionByZero) <==> total == 0 && current <= target
    ensures r.Success? <==> 0 < total && current <= target + total < U32_LIMIT
    ensures r.Success? ==>
      && r.value < total
      && (current + r.value) % total == target % total
      && forall k :: 0 <= k < r.value ==> !Arith.Lands(current, k, total, target)
  {
    if target + total >= U32_LIMIT then Failure(AddOverflow)
    else if target + total < current then Failure(SubOverflow)
    else if total == 0 then Failure(DivisionByZero)
    else
      Arith.ForwardDistance(current, target, total);
      Success((target + total - current) % total)
  }

  lemma {:induction false} AdvanceKeepsNames(s: Service, k: nat)
    ensures Advance(s, k).names == s.names
    decreases k
  {
    if k > 0 {
      AdvanceKeepsNames(Next(s), k - 1);
    }
  }

  /** Under the `Next` assumption, `k` commands move the index `k` steps
      around the cycle of layouts. */
  lemma {:induction false} AdvanceCurrent(s: Service, k: nat)
    requires |s.names| > 0
    requires k > 0 || s.current < |s.names|
    ensures Advance(s, k).current == (s.current + k) % |s.names|
    decreases k
  {
    var n := |s.names|;
    if k == 0 {
      Arith.ModSmall(s.current, n);
    } else {
      var next := Next(s);
      assert next.current == (s.current + 1) % n && |next.names| == n;
      assert Advance(s, k) == Advance(next, k - 1);
      if k == 1 {
        assert Advance(next, 0) == next;
      } else {
        AdvanceCurrent(next, k - 1);
        Arith.ModOfReducedSum(s.current + 1, k - 1, n);
      }
    }
  }

  /** The outcome of the advance loop: how many commands took effect,
      whether the loop ran to completion, and the service afterwards. */
  datatype Issued = Issued(count: nat, completed: bool, svc: Service)

  /** The `for _ in 0..count` loop: each iteration spawns one "next"
      command; the command numbered `failsAt` (from 0) cannot be spawned,
      which ends the loop through `?`. */
  function IssueNexts(svc: Service, count: nat, failsAt: Option<nat>): (r: Issued)
    ensures r.completed <==> !(failsAt.Some? && failsAt.value < count)
    ensures r.count == if r.completed then count else failsAt.value
    decreases count
  {
    if count == 0 then Issued(0, true, svc)
    else if failsAt == Some(0) then Issued(0, false, svc)
    else
      var later := if failsAt.Some? then Some(failsAt.value - 1) else None;
      var rest := IssueNexts(Next(svc), count - 1, later);
      Issued(rest.count + 1, rest.completed, rest.svc)
  }

  /** The loop stops at the first failing command; the commands before it
      have taken effect and nothing undoes them. */
  lemma {:induction false} IssueNextsStopsAtFirstFailure(svc: Service, count: nat, failsAt: Option<nat>)
    ensures failsAt.Some? && failsAt.value < count ==>
      IssueNexts(svc, count, failsAt) == Issued(failsAt.value, false, Advance(svc, failsAt.value))
    ensures !(failsAt.Some? && failsAt.value < count) ==>
      IssueNexts(svc, count, failsAt) == Issued(count, true, Advance(svc, count))
    decreases count
  {
    if count > 0 && failsAt != Some(0) {
      var later := if failsAt.Some? then Some(failsAt.value - 1) else None;
      IssueNextsStopsAtFirstFailure(Next(svc), count - 1, later);
    }
  }

  datatype SwitchEffect = SwitchEffect(issued: nat, result: Result<(), NiriError>, svc: Service)

  /** `switch_to_layout(target)`: query the current index; if it is the
      target, stop; otherwise query the layouts, compute the step count and
      issue that many "next" commands. `indexReply` and `layoutsReply` are
      the outputs of the two queries, `svc` is the compositor's state, and
      `failsAt` the first "next" command that cannot be spawned, if any.
      Only "next" commands change the compositor, and a failure before the
      loop issues none. */
  function SwitchToLayout(target: u32, indexReply: Reply, layoutsReply: Reply, svc: Service,
                          failsAt: Option<nat>): (e: SwitchEffect)
    ensures e.svc == Advance(svc, e.issued)
    ensures GetCurrentIndex(indexReply) == Success(target) ==> e == SwitchEffect(0, Success(()), svc)
    ensures e.result.Failure? && e.result.error != NextFailed ==> e.issued == 0
    ensures e.result == Failure(NextFailed) ==> failsAt == Some(e.issued)
    ensures GetCurrentIndex(indexReply).Failure? ==>
      e == SwitchEffect(0, Failure(GetCurrentIndex(indexReply).error), svc)
    ensures GetCurrentIndex(indexReply).Success? && GetCurrentIndex(indexReply).value != target
            && GetLayouts(layoutsReply).Failure? ==>
      e == SwitchEffect(0, Failure(GetLayouts(layoutsReply).error), svc)
    ensures e.result.Failure? && Panics(e.result.error) <==>
      && GetCurrentIndex(indexReply).Success? && GetCurrentIndex(indexReply).value != target
      && GetLayouts(layoutsReply).Success?
      && Steps(GetCurrentIndex(indexReply).value, target, AsU32(|GetLayouts(layoutsReply).value|)).Failure?
    ensures e.result.Failure? && Panics(e.result.error) ==>
      e.result.error == Steps(GetCurrentIndex(indexReply).value, target, AsU32(|GetLayouts(layoutsReply).value|)).error
  {
    match GetCurrentIndex(indexReply)
    case Failure(err) => SwitchEffect(0, Failure(err), svc)
    case Success(current) =>
      if current == target then SwitchEffect(0, Success(()), svc)
      else
        match GetLayouts(layoutsReply)
        case Failure(err) => SwitchEffect(0, Failure(err), svc)
        case Success(layouts) =>
          match Steps(current, target, AsU32(|layouts|))
          case Failure(err) => SwitchEffect(0, Failure(err), svc)
          case Success(steps) =>
            var run := IssueNexts(svc, steps, failsAt);
            IssueNextsStopsAtFirstFailure(svc, steps, failsAt);
            SwitchEffect(run.count, if run.completed then Success(()) else Failure(NextFailed), run.svc)
  }

  /** Away from the target, with both queries answered and a step count
      computed, the switch issues exactly that many commands, unless one
      fails: then it stops there, reports the failure, and the commands
      already issued stay in effect. */
  lemma SwitchIssuesSteps(target: u32, indexReply: Reply, layoutsReply: Reply, svc: Service,
                          failsAt: Option<nat>, current: u32, layouts: seq<string>, steps: nat)
    requires GetCurrentIndex(indexReply) == Success(current) && current != target
    requires GetLayouts(layoutsReply) == Success(layouts)
    requires Steps(current, target, AsU32(|layouts|)) == Success(steps)
    ensures failsAt.Some? && failsAt.value < steps ==>
      SwitchToLayout(target, indexReply, layoutsReply, svc, failsAt) ==
        SwitchEffect(failsAt.value, Failure(NextFailed), Advance(svc, failsAt.value))
    ensures !(failsAt.Some? && failsAt.value < steps) ==>
      SwitchToLayout(target, indexReply, layoutsReply, svc, failsAt) ==
        SwitchEffect(steps, Success(()), Advance(svc, steps))
  {
    IssueNextsStopsAtFirstFailure(svc, steps, failsAt);
  }

  /** With both indices below a non-zero total, no step count panics. */
  lemma StepsInRange(current: nat, target: u32, total: nat) returns (steps: nat)
    requires current < total && target < total && target + total < U32_LIMIT
    ensures Steps(current, target, total) == Success(steps)
    ensures steps < total
  {
    steps := Steps(current, target, total).value;
  }

  /** Walks that never land on the target's residue never reach it. */
  lemma NoEarlierLanding(svc: Service, target: nat, steps: nat)
    requires 0 < |svc.names| && svc.current < |svc.names| && target < |svc.names|
    requires forall k :: 0 <= k < steps ==> !Arith.Lands(svc.current, k, |svc.names|, target)
    ensures forall k :: 0 <= k < steps ==> Advance(svc, k).current != target
  {
    Arith.ModSmall(target, |svc.names|);
    forall k | 0 <= k < steps
      ensures Advance(svc, k).current != target
    {
      AdvanceCurrent(svc, k);
      assert !Arith.Lands(svc.current, k, |svc.names|, target);
    }
  }

  /** Away from the target, a truthful compositor lets the switch compute
      the forward distance and issue that many commands. */
  lemma SwitchAwayIssuesDistance(target: u32, svc: Service) returns (steps: nat)
    requires 0 < |svc.names| && svc.current < |svc.names| && target < |svc.names|
    requires target + |svc.names| < U32_LIMIT && svc.current != target
    ensures SwitchToLayout(target, Query(svc), Query(svc), svc, None) ==
      SwitchEffect(steps, Success(()), Advance(svc, steps))
    ensures steps < |svc.names| && Arith.Lands(svc.current, steps, |svc.names|, target)
    ensures forall k :: 0 <= k < steps ==> !Arith.Lands(svc.current, k, |svc.names|, target)
  {
    var n := |svc.names|;
    QueryRoundTrip(svc);
    assert AsU32(n) == n;
    steps := StepsInRange(svc.current, target, n);
    SwitchIssuesSteps(target, Query(svc), Query(svc), svc, None, svc.current, svc.names, steps);
  }

  /** Against a compositor that answers both queries truthfully and whose
      index and target are in range, switching succeeds, lands exactly on
      the target, and issues the fewest commands that get there. */
  lemma SwitchReachesTarget(target: u32, svc: Service) returns (e: SwitchEffect)
    requires 0 < |svc.names| && svc.current < |svc.names| && target < |svc.names|
    requires target + |svc.names| < U32_LIMIT
    ensures e == SwitchToLayout(target, Query(svc), Query(svc), svc, None)
    ensures e.result == Success(())
    ensures e.svc.current == target && e.svc.names == svc.names
    ensures e.issued < |svc.names|
    ensures forall k :: 0 <= k < e.issued ==> Advance(svc, k).current != target
  {
    e := SwitchToLayout(target, Query(svc), Query(svc), svc, None);
    if svc.current == target {
      QueryRoundTrip(svc);
    } else {
      var steps := SwitchAwayIssuesDistance(target, svc);
      AdvanceKeepsNames(svc, steps);
      AdvanceCurrent(svc, steps);
      Arith.ModSmall(target, |svc.names|);
      NoEarlierLanding(svc, target, steps);
    }
  }

  /** When the command numbered `f` cannot be spawned, the switch fails
      after exactly `f` commands, and those remain in effect. */
  lemma SwitchAbortsWithoutRollback(target: u32, svc: Service, f: nat)
    requires svc.current < U32_LIMIT && svc.current != target
    requires Steps(svc.current, target, AsU32(|svc.names|)).Success?
    requires f < Steps(svc.current, target, AsU32(|svc.names|)).value
    ensures SwitchToLayout(target, Query(svc), Query(svc), svc, Some(f)) ==
      SwitchEffect(f, Failure(NextFailed), Advance(svc, f))
  {
    QueryRoundTrip(svc);
    var steps := Steps(svc.current, target, AsU32(|svc.names|)).value;
    SwitchIssuesSteps(target, Query(svc), Query(svc), svc, Some(f), svc.current, svc.names, steps);
  }

  /** A target so large that `target + total` leaves u32 (a configured
      `layout_index` near 2^32) makes a switch away from the current index
      panic before any command is issued. */
  lemma HugeTargetPanics(target: u32, svc: Service)
    requires svc.current < U32_LIMIT && svc.current != target
    requires |svc.names| < U32_LIMIT && target + |svc.names| >= U32_LIMIT
    ensures SwitchToLayout(target, Query(svc), Query(svc), svc, None) == SwitchEffect(0, Failure(AddOverflow), svc)
  {
    QueryRoundTrip(svc);
  }

  /** With no layouts, a switch away from the current index panics. */
  lemma SwitchWithoutLayoutsPanics(target: u32, indexReply: Reply, layoutsReply: Reply,
                                   svc: Service, failsAt: Option<nat>)
    requires GetCurrentIndex(indexReply).Success? && GetCurrentIndex(indexReply).value != target
    requires GetLayouts(layoutsReply) == Success([])
    ensures SwitchToLayout(target, indexReply, layoutsReply, svc, failsAt).result in
      {Failure(DivisionByZero), Failure(SubOverflow)}
    ensures SwitchToLayout(target, indexReply, layoutsReply, svc, failsAt).issued == 0
  {
  }
}

=== FILE: setup.dfy ===
/** Interactive setup (`cmd_setup` in src/main.rs): for every detected
    keyboard, ask for a layout index until one is valid, and record the
    keyboard's ids in the four-digit hex form the daemon later looks up.

    The prompt is I/O: each keyboard's typed answers are given as a
    sequence, the first one the validator accepts is taken, and running out
    of answers stands for the prompt failing (`interact()?`). Saving the
    configuration is I/O and not part of this model. */
module Setup {
  import opened Base
  import Input
  import Niri
  import opened DeviceKeys

  datatype SetupError =
    | ListFailed(listError: Input.ListError)
    | LayoutsFailed(niriError: Niri.NiriError)
    | NoKeyboards
    | PromptPanic     // `layouts.len() - 1` underflows when there are no layouts (debug build)
    | PromptAborted   // `interact()` failed before a valid index was entered

  /** The prompt: answers are re-asked until one is below the number of
      layouts; the result is that first valid answer (`PromptTakesFirstValid`). */
  function Prompt(answers: seq<nat>, layoutCount: nat): (r: Option<nat>)
    ensures r.Some? ==> r.value < layoutCount
    ensures r.None? <==> forall i :: 0 <= i < |answers| ==> answers[i] >= layoutCount
    decreases |answers|
  {
    if |answers| == 0 then None
    else if answers[0] < layoutCount then Some(answers[0])
    else
      var r := Prompt(answers[1..], layoutCount);
      assert forall i :: 1 <= i < |answers| ==> answers[i] == answers[1..][i - 1];
      r
  }

  /** A prompt that succeeds returns the first answer the validator
      accepts, every earlier one having been rejected. */
  lemma {:induction false} PromptTakesFirstValid(answers: seq<nat>, layoutCount: nat) returns (i: nat)
    requires Prompt(answers, layoutCount).Some?
    ensures FirstValid(answers, layoutCount, i) && answers[i] == Prompt(answers, layoutCount).value
    decreases |answers|
  {
    if answers[0] < layoutCount {
      i := 0;
    } else {
      var j := PromptTakesFirstValid(answers[1..], layoutCount);
      i := j + 1;
    }
  }

  /** Answer `i` is valid and every earlier answer was rejected. */
  predicate FirstValid(answers: seq<nat>, layoutCount: nat, i: int) {
    && 0 <= i < |answers|
    && answers[i] < layoutCount
    && forall j :: 0 <= j < i ==> answers[j] >= layoutCount
  }

  /** The entry setup writes for a keyboard: its ids through `{:04x}`, and
      the index cast to u32 (`as u32` truncates, so it never grows). */
  function ConfigFor(kb: Input.Keyboard, index: nat): (c: KeyboardConfig)
    ensures Describes(c, kb)
    ensures c.layoutIndex == AsU32(index)
  {
    KeyboardConfig(kb.name, Hex4(kb.vendorId), Hex4(kb.productId), AsU32(index))
  }

  /** `c` is the entry for keyboard `kb`: its name, and its ids in the
      four-digit lower-case hex form. */
  predicate Describes(c: KeyboardConfig, kb: Input.Keyboard) {
    && c.name == kb.name
    && c.vendorId == Hex4(kb.vendorId)
    && c.productId == Hex4(kb.productId)
  }

  /** The prompt for keyboard `i` gets a valid answer: `answers[i]` are the
      answers typed for it, and there are none when input ran out. */
  predicate Answered(answers: seq<seq<nat>>, layoutCount: nat, i: nat) {
    i < |answers| && Prompt(answers[i], layoutCount).Some?
  }

  /** `c` is what setup writes for `kb` when `typed` are the answers at its
      prompt: the keyboard's name and ids, and the first valid answer as
      u32. */
  predicate Records(c: KeyboardConfig, kb: Input.Keyboard, typed: seq<nat>, layoutCount: nat) {
    && Describes(c, kb)
    && Prompt(typed, layoutCount).Some?
    && c.layoutIndex == AsU32(Prompt(typed, layoutCount).value)
  }

  /** The loop over keyboards: one validated prompt per keyboard, in order,
      aborting on the first prompt that fails. Entry `i` records keyboard
      `i` with the first valid answer typed for it; setup fails exactly when
      some keyboard's prompt never gets one. */
  function Configure(kbs: seq<Input.Keyboard>, layoutCount: nat, answers: seq<seq<nat>>)
    : (r: Result<seq<KeyboardConfig>, SetupError>)
    ensures r.Success? ==> |r.value| == |kbs| <= |answers|
    ensures r.Success? ==> forall i :: 0 <= i < |kbs| ==>
      Describes(r.value[i], kbs[i]) && r.value[i].layoutIndex < layoutCount
    ensures r.Success? ==> forall i :: 0 <= i < |kbs| ==> Records(r.value[i], kbs[i], answers[i], layoutCount)
    ensures r.Failure? <==> exists i: nat :: i < |kbs| && !Answered(answers, layoutCount, i)
    ensures r.Failure? ==> r.error == PromptAborted
    decreases |kbs|
  {
    if |kbs| == 0 then Success([])
    else
      var mine := if |answers| > 0 then answers[0] else [];
      var others := if |answers| > 0 then answers[1..] else [];
      match Prompt(mine, layoutCount)
      case None =>
        assert !Answered(answers, layoutCount, 0);
        Failure(PromptAborted)
      case Some(index) =>
        var rest := Configure(kbs[1..], layoutCount, others);
        AnsweredShift(answers, layoutCount, |kbs|);
        if rest.Failure? then rest
        else
          var configs := [ConfigFor(kbs[0], index)] + rest.value;
          RecordsCons(configs, kbs, answers, layoutCount);
          Success(configs)
  }

  /** Dropping the first keyboard's answers shifts which prompts are
      answered by one. */
  lemma AnsweredShift(answers: seq<seq<nat>>, layoutCount: nat, n: nat)
    requires Answered(answers, layoutCount, 0) && n > 0
    ensures (exists i: nat :: i < n && !Answered(answers, layoutCount, i)) <==>
            (exists i: nat :: i < n - 1 && !Answered(answers[1..], layoutCount, i))
  {
    if i: nat :| i < n && !Answered(answers, layoutCount, i) {
      assert i > 0 && !Answered(answers[1..], layoutCount, i - 1);
    }
    if i: nat :| i < n - 1 && !Answered(answers[1..], layoutCount, i) {
      assert !Answered(answers, layoutCount, i + 1);
    }
  }

  /** Entries that record the first keyboard and the rest, in order,
      record the whole list. */
  lemma RecordsCons(configs: seq<KeyboardConfig>, kbs: seq<Input.Keyboard>, answers: seq<seq<nat>>, layoutCount: nat)
    requires |configs| == |kbs| > 0 && |kbs| <= |answers|
    requires Records(configs[0], kbs[0], answers[0], layoutCount)
    requires forall i :: 0 <= i < |kbs| - 1 ==> Records(configs[1..][i], kbs[1..][i], answers[1..][i], layoutCount)
    ensures forall i :: 0 <= i < |kbs| ==> Records(configs[i], kbs[i], answers[i], layoutCount)
    ensures forall i :: 0 <= i < |kbs| ==> Describes(configs[i], kbs[i]) && configs[i].layoutIndex < layoutCount
  {
    forall i | 0 <= i < |kbs|
      ensures Records(configs[i], kbs[i], answers[i], layoutCount)
      ensures Describes(configs[i], kbs[i]) && configs[i].layoutIndex < layoutCount
    {
      if i > 0 {
        assert configs[i] == configs[1..][i - 1] && kbs[i] == kbs[1..][i - 1] && answers[i] == answers[1..][i - 1];
      }
    }
  }

  /** `cmd_setup`: list keyboards, read the layouts, refuse an empty
      keyboard list, then prompt for each keyboard. `keyboards` holds the
      detected keyboards in the order the listing yields them. With no
      layouts the prompt text's `layouts.len() - 1` panics in a debug build. */
  function RunSetup(keyboards: Result<seq<Input.Keyboard>, Input.ListError>,
                    layouts: Result<seq<string>, Niri.NiriError>,
                    answers: seq<seq<nat>>): (r: Result<seq<KeyboardConfig>, SetupError>)
    ensures keyboards.Failure? ==> r == Failure(ListFailed(keyboards.error))
    ensures keyboards.Success? && layouts.Failure? ==> r == Failure(LayoutsFailed(layouts.error))
    ensures r == Failure(NoKeyboards) <==> keyboards == Success([]) && layouts.Success?
    ensures keyboards.Success? && |keyboards.value| > 0 && layouts == Success([]) ==> r == Failure(PromptPanic)
    ensures r == Failure(PromptAborted) <==>
      && keyboards.Success? && |keyboards.value| > 0
      && layouts.Success? && |layouts.value| > 0
      && exists i: nat :: i < |keyboards.value| && !Answered(answers, |layouts.value|, i)
    ensures r.Success? <==>
      && keyboards.Success? && |keyboards.value| > 0
      && layouts.Success? && |layouts.value| > 0
      && forall i: nat :: i < |keyboards.value| ==> Answered(answers, |layouts.value|, i)
    ensures r.Success? ==> keyboards.Success? && layouts.Success? && |r.value| == |keyboards.value| > 0
    ensures r.Success? ==> forall i :: 0 <= i < |r.value| ==> r.value[i].layoutIndex < |layouts.value|
    ensures r.Success? ==> |r.value| <= |answers|
    ensures r.Success? ==> forall i :: 0 <= i < |r.value| ==>
      Records(r.value[i], keyboards.value[i], answers[i], |layouts.value|)
  {
    match keyboards
    case Failure(e) => Failure(ListFailed(e))
    case Success(kbs) =>
      match layouts
      case Failure(e) => Failure(LayoutsFailed(e))
      case Success(names) =>
        if |kbs| == 0 then Failure(NoKeyboards)
        else if |names| == 0 then Failure(PromptPanic)
        else Configure(kbs, |names|, answers)
  }

  /** Entries that describe a keyboard list carry the daemon's key for
      each keyboard; an entry whose ids no later keyboard shares is the one
      the layout map keeps. */
  lemma DescribedKeys(configs: seq<KeyboardConfig>, kbs: seq<Input.Keyboard>, i: int)
    requires |configs| == |kbs| && 0 <= i < |kbs|
    requires forall j :: 0 <= j < |kbs| ==> Describes(configs[j], kbs[j])
    ensures ConfigKey(configs[i]) == DeviceKey(kbs[i].vendorId, kbs[i].productId)
    ensures DeviceKey(kbs[i].vendorId, kbs[i].productId) in LayoutMap(configs)
    ensures (forall j :: i < j < |kbs| ==>
               (kbs[j].vendorId, kbs[j].productId) != (kbs[i].vendorId, kbs[i].productId)) ==>
      LayoutMap(configs)[DeviceKey(kbs[i].vendorId, kbs[i].productId)] == Binding(configs[i].name, configs[i].layoutIndex)
  {
    var key := DeviceKey(kbs[i].vendorId, kbs[i].productId);
    ConfigKeyMatchesDevice(configs[i], kbs[i].vendorId, kbs[i].productId);
    if forall j :: i < j < |kbs| ==> (kbs[j].vendorId, kbs[j].productId) != (kbs[i].vendorId, kbs[i].productId) {
      forall j | i < j < |configs|
        ensures ConfigKey(configs[j]) != key
      {
        ConfigKeyMatchesDevice(configs[j], kbs[i].vendorId, kbs[i].productId);
        if configs[j].vendorId == Hex4(kbs[i].vendorId) && configs[j].productId == Hex4(kbs[i].productId) {
          Hex4Injective(kbs[j].vendorId, kbs[i].vendorId);
          Hex4Injective(kbs[j].productId, kbs[i].productId);
        }
      }
      LayoutMapLastWins(configs, i);
    }
  }

  /** Round trip between setup and the daemon: every keyboard setup
      configured is found in the daemon's layout map under exactly the key
      the daemon computes for it, and when no later keyboard in the list
      has the same ids, with its name and the first valid index typed at
      its prompt. */
  lemma SetupKeysMatchDaemon(keyboards: Result<seq<Input.Keyboard>, Input.ListError>,
                             layouts: Result<seq<string>, Niri.NiriError>,
                             answers: seq<seq<nat>>, i: int) returns (configs: seq<KeyboardConfig>, index: nat)
    requires RunSetup(keyboards, layouts, answers).Success?
    requires 0 <= i < |keyboards.value|
    ensures configs == RunSetup(keyboards, layouts, answers).value
    ensures ConfigKey(configs[i]) == DeviceKey(keyboards.value[i].vendorId, keyboards.value[i].productId)
    ensures DeviceKey(keyboards.value[i].vendorId, keyboards.value[i].productId) in LayoutMap(configs)
    ensures i < |answers| && Prompt(answers[i], |layouts.value|) == Some(index)
    ensures (forall j :: i < j < |keyboards.value| ==>
               (keyboards.value[j].vendorId, keyboards.value[j].productId)
                 != (keyboards.value[i].vendorId, keyboards.value[i].productId)) ==>
      LayoutMap(configs)[DeviceKey(keyboards.value[i].vendorId, keyboards.value[i].productId)]
        == Binding(keyboards.value[i].name, AsU32(index))
  {
    configs := RunSetup(keyboards, layouts, answers).value;
    index := Prompt(answers[i], |layouts.value|).value;
    DescribedKeys(configs, keyboards.value, i);
  }
}
